=== FILE: README.md ===
# Farey sequence generator in Dafny

`Farey_sequence.java` builds the Farey sequence of a given order `limit`: the
fractions in lowest terms whose denominators do not exceed `limit`, in
increasing order. It builds either the whole sequence from `0/1` to `1/1` or the
part between two user-given bounds, and it never sorts or searches. After
emitting the lower bound, it finds the bound's right neighbour `c/d` from an
auxiliary pair `(c0, d0)` with `b*c0 - a*d0 == 1`. It then applies the
recurrence `k = (b + limit) / d`, `e = k*c - a`, `f = k*d - b` until the next
term is the upper bound. The ranged constructor reduces both bounds by their
GCD and validates them with `checkBound` first. `getSize` and `getFrac` read
the result.

This project models that generator and proves the following:

- **Specification** (`FareySpec`). A sequence is a Farey range when it runs
  from `lo` to `hi`, every term is in lowest terms with denominator at most
  `limit`, and each consecutive pair `x, y` satisfies
  `x.d*y.n - x.n*y.d == 1` with `x.d + y.d > limit`. From this definition
  alone the project proves:
  - the terms strictly increase;
  - they lie between the bounds;
  - every fraction of the order between the bounds appears;
  - no other sequence qualifies.
- **Generator** (`FareySequence`). `MakeFareySequence` is a loop with
  invariants. It terminates, and its output is the Farey range between its
  bounds. The constructors return `Err` exactly where the original calls
  `System.exit` or divides by zero.
- **Arithmetic** (`JavaInt`, `Euclid`, `Fractions`):
  - Java's truncating `/` and `%`;
  - the original's recursive GCD on all integers, including negative ones;
  - an exact replacement for the `double`-based `compareTo`;
  - the neighbour facts the algorithm's header comment cites: the
    determinant; the mediant as the unique fraction of smallest denominator
    between two neighbours; and the uniqueness of the next term.
- **The generator as written** (`AsWritten`). The original's auxiliary pair
  `c0 = a, d0 = b - 1/a` and its loop are modelled as written, the loop
  allowed a given number of turns. For distinct accepted bounds whose lower
  numerator is 0 or 1 it returns the Farey range. With equal bounds `1/b`,
  or limit 1, it loops. With a lower numerator above 1 it never returns
  unless the bounds are equal, and then it returns a wrong sequence; see
  "## Findings".
- **Small orders** (`SmallOrders`). Order 5, and its part between `1/3` and
  `2/3`, are pinned down term by term.

Modules: `Results` (error outcomes), `JavaInt`, `Euclid`, `Fractions`,
`FareySpec`, `FareySequence`, `AsWritten`, `SmallOrders`.

## Model

| member | source | states |
|---|---|---|
| JavaInt.RemMagnitude | Farey_sequence.java:119 | Java's `a % b` has the magnitude of the Euclidean remainder of the magnitudes and the sign of `a`, so it is strictly smaller than `b` in magnitude and the GCD recursion terminates |
| JavaInt.NonNegativeDivision | Farey_sequence.java:181 | for a non-negative dividend and a positive divisor, Java's truncating `/` and `%` agree with floor division |
| Euclid.Gcd | Farey_sequence.java:119 | the recursive GCD `b == 0 ? a : GCD(b, a % b)` is defined for all integers and is 0 exactly when both inputs are 0 |
| Euclid.GcdNonNegative | Farey_sequence.java:119 | for non-negative inputs the GCD is non-negative |
| Euclid.GcdDividesBoth | Farey_sequence.java:119 | for non-negative inputs that are not both 0, the GCD is positive and divides both |
| Euclid.GcdGreatest | Farey_sequence.java:119 | every positive common divisor of non-negative inputs divides the GCD |
| Euclid.GcdMagnitude | Farey_sequence.java:119 | for inputs of any sign, the GCD's magnitude is the GCD of the magnitudes |
| Euclid.GcdNegate | Farey_sequence.java:119 | negating both inputs negates the GCD, so a fraction with both parts negative reduces to positive parts (one with a single negative part still has exactly one negative part: `-1/2` becomes `1/-2`) |
| Euclid.ReducedByGcd | Farey_sequence.java:76-79 | dividing a fraction's parts by their GCD leaves coprime parts |
| Euclid.NeighboursCoprime | Farey_sequence.java:11 | `b*c - a*d == 1` with non-negative parts forces both `a/b` and `c/d` into lowest terms |
| Euclid.ExtGcd | Farey_sequence.java:175-176 | Bezout coefficients `x, y` with `a*x + b*y == GCD(a, b)`, from which an auxiliary pair with `b*c0 - a*d0 == 1` exists |
| Fractions.MakeFraction | Farey_sequence.java:26-32 | the `Fraction` constructor succeeds exactly when the denominator is non-zero, keeps both parts, and otherwise fails with `ZeroDenominator` |
| Fractions.Compare | Farey_sequence.java:40-44 | `compareTo` returns a negative, zero or positive result exactly when the first fraction's value is below, equal to or above the second's |
| Fractions.BeforeIsLess | Farey_sequence.java:40-44 | for positive denominators, cross-multiplication orders fractions as their values do, and equal cross products mean equal values |
| Fractions.NeighboursOrdered | Farey_sequence.java:11 | if `b*c - a*d == 1` then `a/b < c/d` |
| Fractions.NothingBetweenNeighbours | Farey_sequence.java:12 | between neighbours `a/b` and `c/d`, every fraction has denominator at least `b + d` |
| Fractions.MediantBetween | Farey_sequence.java:12 | the mediant `(a + c)/(b + d)` of neighbours `a/b` and `c/d` lies strictly between them and is a neighbour of each |
| Fractions.MediantOnlyAtThatDenominator | Farey_sequence.java:12 | the mediant is the only fraction between neighbours with denominator `b + d`, so with the bound above it is the unique fraction between them of smallest denominator |
| Fractions.SameValueSameFraction | Farey_sequence.java:75-79 | two fractions in lowest terms with the same value are the same pair, so reduced bounds can be compared component-wise |
| Fractions.ReducedTrichotomy | Farey_sequence.java:197 | two fractions in lowest terms are either the same pair or one lies strictly below the other, so the loop's component-wise exit test decides equality of values |
| Fractions.SuccessorUnique | Farey_sequence.java:180 | a fraction has at most one neighbour `c/d` with `d <= limit < b + d` |
| FareySpec.FareyRangeCons | Farey_sequence.java:196-198 | putting a fraction of the order in front of a Farey range, when it is the range's left neighbour with denominators summing above `limit`, gives the Farey range from that fraction |
| FareySpec.ChainExtend | Farey_sequence.java:198 | appending an adjacent term of the order to a valid run keeps it valid |
| FareySpec.NeighbourChain | Farey_sequence.java:11 | a run whose consecutive terms are adjacent neighbours of the order consists of fractions in lowest terms |
| FareySpec.FareyRangeIncreasing | Farey_sequence.java:7-8 | every term of a Farey range lies strictly below every later term |
| FareySpec.FareyRangeSound | Farey_sequence.java:7-8 | every term is a reduced fraction of the order between the two bounds |
| FareySpec.FareyRangeComplete | Farey_sequence.java:7-8 | every reduced fraction of the order between the two bounds is a term |
| FareySpec.FareyRangeUnique | Farey_sequence.java:7-8 | two sequences that are Farey ranges for the same order and bounds are equal |
| FareySequence.CheckBound | Farey_sequence.java:129-149 | the range is accepted exactly when `lo <= hi`, `lo > 0`, `hi <= 1` and both denominators are at most `limit` |
| FareySequence.Normalize | Farey_sequence.java:76-79 | reduction by the GCD fails with `DivisionByZero` when both parts are 0 and with `ZeroDenominator` for any other zero denominator; otherwise it keeps the value, and a positive value comes out in lowest terms |
| FareySequence.NormalizeKeepsReduced | Farey_sequence.java:76-79 | reducing a fraction already in lowest terms returns it unchanged |
| FareySequence.Bounds | Farey_sequence.java:76-82 | the bound set-up fails exactly when a denominator is 0 or `checkBound` refuses, with the matching error; the lower bound is reduced first, so its zero denominator wins, and a zero denominator fails with `DivisionByZero` when the numerator is also 0 and with `ZeroDenominator` otherwise; on success both bounds keep their values, are of the order, are ordered, and `hi <= 1` |
| FareySequence.Seed | Farey_sequence.java:175 | an auxiliary pair with `b*c0 - a*d0 == 1` for every reduced `a/b` |
| FareySequence.SeededSuccessor | Farey_sequence.java:180-183 | `k = floor((limit - d0) / b)` shifts any auxiliary pair to a neighbour whose denominator lies in `(limit - b, limit]` |
| FareySequence.FirstWindow | Farey_sequence.java:175-183 | the first `c/d` is a neighbour of `a/b` with `d <= limit < b + d` |
| FareySequence.Step | Farey_sequence.java:199-205 | one turn of the recurrence shifts the window and keeps the determinant `b*c - a*d`, whatever `k` is |
| FareySequence.StepStaysInOrder | Farey_sequence.java:192-199 | with `k = (b + limit) / d`, the new denominator `f` satisfies `0 < f <= limit < d + f` |
| FareySequence.ZeroStart | Farey_sequence.java:164-168 | a zero lower bound is `0/1`, and `1/limit` is its neighbour of the order |
| FareySequence.FirstWindowSteady | Farey_sequence.java:180-183 | the upper bound never lies strictly between `a/b` and the first `c/d` |
| FareySequence.GaugeMonotone | Farey_sequence.java:197-206 | the termination measure strictly increases with the fraction's value over fractions of the order |
| FareySequence.Advance | Farey_sequence.java:197-206 | while `c/d` is not the upper bound, it is a term of the order below that bound; one turn keeps the loop invariant and moves the measure toward the bound |
| FareySequence.MakeFareySequence | Farey_sequence.java:160-208 | on admissible bounds the loop ends; its output is the Farey range from `lo` to `hi`, with `1/limit` second when `lo` is 0 |
| FareySequence.FromLimit | Farey_sequence.java:59-62 | limit 0 fails with `ZeroDenominator`; any limit of at least 2 yields the whole sequence from `0/1` to `1/1` with `1/limit` second |
| FareySequence.FromRange | Farey_sequence.java:73-85 | the ranged constructor fails exactly when the bound set-up fails, with the same error; otherwise it yields the Farey range between the reduced bounds |
| FareySequence.Queries | Farey_sequence.java:97-115 | about `Farey.Size` and `Farey.FracAt`, the models of `getSize` and `getFrac`: the size is at least 1; `getFrac` returns the bounds at both ends and a fraction in lowest terms at every position inside, and returns `(0, 0)` exactly at positions outside the sequence |
| AsWritten.AuxiliaryAsWritten | Farey_sequence.java:175 | the pair `c0 = a, d0 = b - 1/a` meets `b*c0 - a*d0 == 1` when `a == 1`; for `a > 1` the determinant is 0 |
| AsWritten.FirstWindowAsWritten | Farey_sequence.java:175-183 | the as-written first window starts at `a/b`; its `c/d` is a neighbour of `a/b` when `a == 1` and has the value of `a/b` itself when `a > 1` |
| AsWritten.AgreesForUnitNumerator | Farey_sequence.java:175-183 | for a lower bound `1/b`, the as-written first window equals the corrected one |
| AsWritten.StallsAboveUnitNumerator | Farey_sequence.java:175-205 | for `a > 1` and `b <= limit < 2b`, the as-written first successor of `a/b` is `a/b` itself, and the recurrence leaves that window fixed |
| AsWritten.AcceptedExample | Farey_sequence.java:73-85 | limit 5 with bounds `2/5` and `1/2` passes the bound set-up and is admissible for the generator |
| AsWritten.StallExample | Farey_sequence.java:175-205 | on that input the as-written loop stays at `2/5` forever |
| AsWritten.CorrectedExample | Farey_sequence.java:180-183 | with the corrected auxiliary pair, the first successor of `2/5` in order 5 is `1/2` |
| AsWritten.PassedStaysPassed | Farey_sequence.java:197-206 | once `c/d` is past the upper bound, the exit test fails and the next window is also past it |
| AsWritten.UnitEqualBoundsStartPassed | Farey_sequence.java:164-183 | with equal bounds `1/b` the first `c/d` is already past the upper bound; for the full constructor with limit 1 the window is `1/1, 2/1` |
| AsWritten.LoopAsWritten | Farey_sequence.java:197-207 | a bounded run of the loop: when `c/d` is the upper bound it returns just that bound; otherwise a run that returns starts with `c/d`, has at least two terms and ends with the bound, and a run allowed no turns is still looping |
| AsWritten.MakeAsWritten | Farey_sequence.java:160-208 | a bounded run of `makeFareySequence` as written that returns starts with the lower bound, ends with the upper one, and has `1/limit` second after a zero lower bound |
| AsWritten.LoopFinishes | Farey_sequence.java:197-207 | from a window whose `c/d` is a neighbour of `a/b` not beyond the upper bound, the loop returns within the measure's gap, and `a/b` followed by its output is the Farey range up to the bound |
| AsWritten.CorrectForUnitNumerator | Farey_sequence.java:160-208 | for admissible bounds whose lower numerator is 0 or 1, the original as written returns, and returns the Farey range between the bounds |
| AsWritten.LoopFromUnit | Farey_sequence.java:175-207 | from a lower bound `1/b` the as-written loop returns a run that completes `1/b` to the Farey range up to the bound |
| AsWritten.FixedWindowLoops | Farey_sequence.java:197-206 | a window that one turn leaves unchanged and that is not at the upper bound keeps the loop running for any number of turns |
| AsWritten.PassedLoops | Farey_sequence.java:197-206 | a window past the upper bound keeps the loop running for any number of turns |
| AsWritten.SwappedWindowsLoop | Farey_sequence.java:197-206 | a window that two turns bring back, when neither it nor the window in between is at the upper bound, keeps the loop running for any number of turns |
| AsWritten.TwoThirdsCycles | Farey_sequence.java:160-206 | for a lower bound `2/3` in order 6 and any upper bound other than `2/3` and `4/6`, the original never returns |
| AsWritten.FirstWindowMultiple | Farey_sequence.java:175-183 | for `a > 1` the as-written first window is `a/b` followed by a multiple `q*a/q*b` with `q*b <= limit` |
| AsWritten.MultiplesStep | Farey_sequence.java:199-205 | one turn maps a window of multiples `p*a/p*b, q*a/q*b` of `a/b` to `q*a/q*b, r*a/r*b` with `r > 0` and `r*b <= limit` |
| AsWritten.ReducedIsNoMultiple | Farey_sequence.java:197 | a fraction in lowest terms other than `a/b` is no multiple `q*a/q*b`, so the exit test never matches such a window |
| AsWritten.MultiplesLoop | Farey_sequence.java:197-206 | from a window of multiples of `a/b` the loop never reaches a reduced upper bound other than `a/b` |
| AsWritten.AboveUnitNeverReturns | Farey_sequence.java:160-206 | for a lower bound `a/b` with `a > 1` in any order and any other upper bound in lowest terms, the original never returns |
| AsWritten.StallsForever | Farey_sequence.java:160-206 | for a lower bound `a/b` with `a > 1` and `b <= limit < 2b` and any other upper bound, the original never returns |
| AsWritten.UnitEqualBoundsLoop | Farey_sequence.java:160-206 | with equal bounds `1/b`, and for the full constructor with limit 1, the original never returns |
| AsWritten.EqualBoundsTwice | Farey_sequence.java:160-208 | with equal bounds `a/b`, `a > 1` and `limit < 2b`, the original returns the bound twice |
| AsWritten.WindowsOfTwoThirds | Farey_sequence.java:175-205 | for `2/3` in order 6 the as-written first window is `2/3, 4/6`, one turn gives `4/6, 2/3`, and the next turn gives `2/3, 4/6` back |
| AsWritten.EqualBoundsExample | Farey_sequence.java:160-208 | with equal bounds `2/3` in order 6 the original returns `2/3, 4/6, 2/3`, whose middle term is not in lowest terms |
| SmallOrders.OrderFiveIsUnique | Farey_sequence.java:59-62 | the Farey range of order 5 from `0/1` to `1/1` is `0/1, 1/5, 1/4, 1/3, 2/5, 1/2, 3/5, 2/3, 3/4, 4/5, 1/1` |
| SmallOrders.OrderFiveIsFareyRange | Farey_sequence.java:7-13 | the listed order-5 sequence and its part from `1/3` to `2/3` meet the definition of a Farey range |
| SmallOrders.MiddleIsUnique | Farey_sequence.java:73-85 | the Farey range of order 5 from `1/3` to `2/3` is `1/3, 2/5, 1/2, 3/5, 2/3` |

## Left out

- Printing (`toString`, `printSeq`, the error messages): output only. `System.exit(0)` and `ArithmeticException` become `Err` results.
- Fractions.Compare: compares exactly, not through `double`. Fractions of 32-bit parts can round to the same `double`, so the original may call two distinct fractions equal.
- 32-bit overflow: all integers are unbounded. On admissible inputs every intermediate value (`b + limit`, `k*c`, `k*d`) is at most twice the order, so for orders below 2^30 the original does not wrap either.
- FareySequence.MakeFareySequence: the auxiliary pair comes from extended Euclid (`Seed`), not the as-written `b - 1/a`. The two agree when the numerator is 1 (`AsWritten.AgreesForUnitNumerator`); see "## Findings".
- FareySequence.MakeFareySequence: requires distinct bounds, and `1/limit < hi` when `lo` is 0. On equal bounds the original has no single behaviour worth a contract:
  - for equal bounds `1/b` it never exits (`AsWritten.UnitEqualBoundsLoop`);
  - for `a/b` with `a > 1` and `limit < 2b` it returns the bound twice (`AsWritten.EqualBoundsTwice`);
  - for `2/3` in order 6 it returns `2/3, 4/6, 2/3` (`AsWritten.EqualBoundsExample`);
  - other equal bounds with `a > 1` are not characterised (distinct bounds with `a > 1` never return, `AsWritten.AboveUnitNeverReturns`).
- FareySequence.FromRange: requires that the reduced bounds differ, because on equal bounds the original loops, repeats the bound, or emits an unreduced term, as listed for `MakeFareySequence`. Like `MakeFareySequence` it uses the corrected auxiliary pair, so on `(5, 2, 5, 1, 2)` it returns `2/5, 1/2` where the original never returns.
- FareySequence.FromLimit: requires `limit == 0` or `limit >= 2`.
  - With limit 1, the original loop never exits (`AsWritten.UnitEqualBoundsLoop`).
  - Negative limits are not modelled.
- FareySequence.CheckBound: the code refuses a lower bound of exactly 0 (`compareTo(0/1) <= 0`), although its message and the class comment say non-negative. The model follows the code. A zero lower bound is therefore reachable only through the full constructor.
- FareySequence.Normalize: a negative value is reduced but not claimed to be in lowest terms. Every such bound is then refused by `checkBound`.
- The `fareySequence` field and its `ArrayList` are modelled as an immutable `seq` inside `Farey`. `getNumerator`/`getDenominator` are the datatype's fields, and `getFrac`'s `long` result is a pair of integers.

## Findings

| source | as written | input that shows it | evidently intended | confidence | as-written member | corrected member |
|---|---|---|---|---|---|---|
| Farey_sequence.java:175 | `c0 = a, d0 = b - 1/a`, which meets `b*c0 - a*d0 == 1` only when `a == 1`; for `a > 1`, `1/a` is 0 and the pair is `a/b` itself | `new Farey_sequence(5, 2, 5, 1, 2)`: `checkBound` accepts it; the first `c/d` is `2/5`, and `k = 2` maps the window `2/5, 2/5` to itself, so the loop emits `2/5` without end (`AsWritten.StallExample`). For every `a > 1` and every other upper bound in lowest terms the original never returns, since every window is a pair of multiples of `a/b` (`AsWritten.AboveUnitNeverReturns`). For `b <= limit < 2b` the window is fixed (`AsWritten.StallsForever`); in larger orders it can cycle, as `2/3` towards `3/4` in order 6 does (`AsWritten.TwoThirdsCycles`) | an auxiliary pair with `b*c0 - a*d0 == 1` for every reduced `a/b`, as the comment on that line requires, making the first successor `1/2` (`AsWritten.CorrectedExample`) | not executed | AsWritten.FirstWindowAsWritten | FareySequence.FirstWindow |

=== FILE: as_written.dfy ===
/** The original generator exactly as written: its auxiliary pair, its first
    window, and its loop run for a bounded number of turns. On distinct
    accepted bounds whose lower numerator is 0 or 1 it produces the Farey
    range; on equal bounds `1/b`, or with limit 1, it loops; on a lower
    numerator above 1 it never returns unless the bounds are equal. */
module AsWritten {
  import opened JavaInt
  import opened Results
  import opened Euclid
  import opened Fractions
  import opened FareySpec
  import opened FareySequence

  /** `makeFareySequence`'s auxiliary pair `c0 = a, d0 = b - 1/a`, with Java's
      truncating `1/a`. Its comment asks for `b*c0 - a*d0 == 1`; that holds
      only for `a == 1`. */
  function AuxiliaryAsWritten(a: int, b: int): (r: (int, int))
    requires a > 0
    ensures a == 1 ==> b * r.0 - a * r.1 == 1
    ensures a > 1 ==> b * r.0 - a * r.1 == 0
  {
    (a, b - Div(1, a))
  }

  /** `makeFareySequence`'s first `k`, `c` and `d`, from that auxiliary pair
      with Java's truncating division.
      Whatever `k` is, the window keeps the pair's determinant: for `a == 1`
      the next term is a neighbour of `a/b`, for `a > 1` it has the value of
      `a/b` itself. */
  function FirstWindowAsWritten(limit: int, a: int, b: int): (w: Window)
    requires a > 0 && b != 0
    ensures w.a == a && w.b == b
    ensures a == 1 ==> Neighbours(Frac(a, b), Frac(w.c, w.d))
    ensures a > 1 ==> b * w.c == a * w.d
  {
    var (c0, d0) := AuxiliaryAsWritten(a, b);
    var k := Div(limit - d0, b);
    assert b * (k * a + c0) - a * (k * b + d0) == b * c0 - a * d0 by {
      MulAssociative(b, k, a);
      MulAssociative(a, k, b);
    }
    Window(a, b, k * a + c0, k * b + d0)
  }

  /** For a lower bound `1/b` the as-written window is the corrected one. */
  lemma AgreesForUnitNumerator(limit: int, b: int)
    requires 0 < b <= limit
    ensures Gcd(1, b) == 1 && FirstWindowAsWritten(limit, 1, b) == FirstWindow(limit, 1, b)
  {
    NeighboursCoprime(0, 1, 1, b);
    NonNegativeDivision(limit - (b - 1), b);
    SeededSuccessor(limit, 1, b, 1, b - 1);
    var w := FirstWindowAsWritten(limit, 1, b);
    var v := FirstWindow(limit, 1, b);
    SuccessorUnique(Frac(1, b), Frac(w.c, w.d), Frac(v.c, v.d), limit);
  }

  lemma QuotientIs(x: int, b: int, q: int)
    requires b > 0 && b * q <= x < b * q + b
    ensures x / b == q
  {
    var p := x / b;
    assert x == b * p + x % b;
    if p < q {
      ProductNonNegative(b, q - p - 1);
      assert false;
    } else if p > q {
      ProductNonNegative(b, p - q - 1);
      assert false;
    }
  }

  /** For a lower bound `a/b` with `a > 1` and `b <= limit < 2*b` the
      as-written first successor is `a/b` itself, and that window is a fixed
      point of the loop step: the loop emits `a/b` again and again and never
      meets an upper bound above it. */
  lemma StallsAboveUnitNumerator(limit: int, a: int, b: int)
    requires 1 < a && 0 < b <= limit < 2 * b
    ensures FirstWindowAsWritten(limit, a, b) == Window(a, b, a, b)
    ensures Step(limit, Window(a, b, a, b)) == Window(a, b, a, b)
  {
    QuotientIs(1, a, 0);
    QuotientIs(limit - b, b, 0);
    QuotientIs(b + limit, b, 2);
  }

  /** The bound check accepts limit 5 with bounds 2/5 and 1/2, and the
      corrected generator can run on them. */
  lemma AcceptedExample()
    ensures Bounds(5, 2, 5, 1, 2) == Ok((Frac(2, 5), Frac(1, 2)))
    ensures Admissible(5, Frac(2, 5), Frac(1, 2))
  {
    NeighboursCoprime(2, 5, 1, 2);
    NormalizeKeepsReduced(Frac(2, 5));
    NormalizeKeepsReduced(Frac(1, 2));
    assert CheckBound(5, Frac(2, 5), Frac(1, 2));
  }

  /** On that accepted range the as-written loop is stuck at `2/5`. */
  lemma StallExample()
    ensures FirstWindowAsWritten(5, 2, 5) == Window(2, 5, 2, 5)
    ensures Step(5, Window(2, 5, 2, 5)) == Window(2, 5, 2, 5)
  {
    StallsAboveUnitNumerator(5, 2, 5);
  }

  /** The corrected first successor of `2/5` in order 5 is `1/2`. The
      fraction arrives as parameters pinned by the precondition rather than
      as literals, so the verifier does not unfold `Gcd` and `ExtGcd` on
      constants. */
  lemma CorrectedExample(a: int, b: int)
    requires a == 2 && b == 5
    ensures Gcd(a, b) == 1 && FirstWindow(5, a, b) == Window(2, 5, 1, 2)
  {
    NeighboursCoprime(a, b, 1, 2);
    var v := FirstWindow(5, a, b);
    SuccessorUnique(Frac(a, b), Frac(v.c, v.d), Frac(1, 2), 5);
  }

  /** The loop's window once `c/d` has passed the upper bound. */
  predicate Passed(limit: int, w: Window, hi: Frac) {
    && 0 <= w.a && 0 < w.b <= limit
    && Neighbours(Frac(w.a, w.b), Frac(w.c, w.d))
    && 0 < w.d <= limit
    && Before(hi, Frac(w.c, w.d))
  }

  /** Once past the upper bound the loop stays past it, so its exit test
      `c == upper.n && d == upper.d` never succeeds. */
  lemma PassedStaysPassed(limit: int, w: Window, hi: Frac)
    requires Passed(limit, w, hi) && hi.d > 0
    ensures w.c != hi.n || w.d != hi.d
    ensures Passed(limit, Step(limit, w), hi)
  {
    assert w.c > 0 by {
      ProductNonNegative(w.a, w.d);
    }
    StepStaysInOrder(limit, w);
    var w' := Step(limit, w);
    assert Neighbours(Frac(w'.a, w'.b), Frac(w'.c, w'.d));
    assert Before(hi, Frac(w'.c, w'.d)) by {
      NeighboursOrdered(Frac(w'.a, w'.b), Frac(w'.c, w'.d));
      BeforeTransitive(hi, Frac(w.c, w.d), Frac(w'.c, w'.d));
    }
  }

  /** Equal bounds `1/b`: the as-written first window is already past the
      upper bound. The full constructor with `limit == 1` is this case with
      `b == 1`, its window being `1/1, 2/1`. */
  lemma UnitEqualBoundsStartPassed(limit: int, b: int)
    requires 0 < b <= limit
    ensures Passed(limit, FirstWindowAsWritten(limit, 1, b), Frac(1, b))
    ensures limit == 1 ==> FirstWindowAsWritten(1, 1, 1) == Window(1, 1, 2, 1)
  {
    AgreesForUnitNumerator(limit, b);
    var w := FirstWindowAsWritten(limit, 1, b);
    NeighboursOrdered(Frac(w.a, w.b), Frac(w.c, w.d));
  }

  // ---------------------------------------------------------------------
  // The loop as written, for a bounded number of turns

  /** How a bounded run of the original loop ends: it returned these terms,
      it reached a zero `d`, whose `new Fraction(c, d)` exits the program
      before the division by `d`, or it was still looping when the turns ran out. */
  datatype Outcome = Returns(terms: seq<Frac>) | ExitsOnZeroDenominator | StillLooping

  /** The loop of `makeFareySequence` from window `w`, allowed `fuel` turns:
      while `c/d` differs from `hi` component-wise, emit `c/d` and step. On
      exit the terms are the emitted ones followed by `hi`. */
  function LoopAsWritten(limit: int, w: Window, hi: Frac, fuel: nat): (r: Outcome)
    ensures r.Returns? ==> |r.terms| >= 1 && r.terms[|r.terms| - 1] == hi
    ensures w.c == hi.n && w.d == hi.d ==> r == Returns([hi])
    ensures (w.c != hi.n || w.d != hi.d) && r.Returns? ==> r.terms[0] == Frac(w.c, w.d) && |r.terms| >= 2
    ensures (w.c != hi.n || w.d != hi.d) && fuel == 0 ==> r == StillLooping
    decreases fuel
  {
    if w.c == hi.n && w.d == hi.d then Returns([hi])
    else if fuel == 0 then StillLooping
    else if w.d == 0 then ExitsOnZeroDenominator
    else
      match LoopAsWritten(limit, Step(limit, w), hi, fuel - 1)
      case Returns(rest) => Returns([Frac(w.c, w.d)] + rest)
      case other => other
  }

  /** A turn that does not exit emits `c/d` in front of what the rest of the run returns. */
  lemma LoopEmits(limit: int, w: Window, hi: Frac, fuel: nat)
    requires fuel > 0 && w.d != 0 && (w.c != hi.n || w.d != hi.d)
    requires LoopAsWritten(limit, Step(limit, w), hi, fuel - 1).Returns?
    ensures LoopAsWritten(limit, w, hi, fuel)
      == Returns([Frac(w.c, w.d)] + LoopAsWritten(limit, Step(limit, w), hi, fuel - 1).terms)
  {
  }

  /** `makeFareySequence` as written, its loop allowed `fuel` turns: emit the
      lower bound (and `1/limit` after a zero lower bound), take the first
      window from the as-written auxiliary pair, and run the loop. */
  function MakeAsWritten(limit: int, lo: Frac, hi: Frac, fuel: nat): (r: Outcome)
    requires 0 <= lo.n && 0 < lo.d && (lo.n == 0 ==> limit > 0)
    ensures r.Returns? ==> |r.terms| >= 2 && r.terms[0] == lo && r.terms[|r.terms| - 1] == hi
    ensures r.Returns? && lo.n == 0 ==> |r.terms| >= 3 && r.terms[1] == Frac(1, limit)
  {
    var prefix := if lo.n == 0 then [lo, Frac(1, limit)] else [lo];
    var a := if lo.n == 0 then 1 else lo.n;
    var b := if lo.n == 0 then limit else lo.d;
    match LoopAsWritten(limit, FirstWindowAsWritten(limit, a, b), hi, fuel)
    case Returns(rest) => Returns(prefix + rest)
    case other => other
  }

  /** For a positive lower bound the run is the lower bound followed by what the loop returns. */
  lemma MakeEmits(limit: int, lo: Frac, hi: Frac, fuel: nat)
    requires 0 < lo.n && 0 < lo.d
    requires LoopAsWritten(limit, FirstWindowAsWritten(limit, lo.n, lo.d), hi, fuel).Returns?
    ensures MakeAsWritten(limit, lo, hi, fuel)
      == Returns([lo] + LoopAsWritten(limit, FirstWindowAsWritten(limit, lo.n, lo.d), hi, fuel).terms)
  {
  }

  /** From a steady window the loop returns within the gauge gap, and what it
      emits completes `a/b` to the Farey range up to `hi`. */
  lemma {:induction false} LoopFinishes(limit: int, w: Window, hi: Frac, fuel: nat)
    requires Steady(limit, w, hi) && OfOrder(hi, limit)
    requires fuel >= Gauge(hi, limit) - Gauge(Frac(w.c, w.d), limit)
    ensures LoopAsWritten(limit, w, hi, fuel).Returns?
    ensures IsFareyRange([Frac(w.a, w.b)] + LoopAsWritten(limit, w, hi, fuel).terms, limit, Frac(w.a, w.b), hi)
    decreases fuel
  {
    NeighboursCoprime(w.a, w.b, w.c, w.d);
    var x := Frac(w.a, w.b);
    if w.c == hi.n && w.d == hi.d {
      FareyRangeCons(x, [hi], limit, hi);
    } else {
      Advance(limit, w, hi);
      var w' := Step(limit, w);
      GaugeMonotone(Frac(w'.c, w'.d), hi, limit);
      LoopFinishes(limit, w', hi, fuel - 1);
      var rest := LoopAsWritten(limit, w', hi, fuel - 1).terms;
      FareyRangeCons(x, [Frac(w.c, w.d)] + rest, limit, hi);
    }
  }

  lemma GaugeNonNegative(x: Frac, limit: int)
    requires 0 <= x.n && 0 < x.d <= limit
    ensures Gauge(x, limit) >= 0
  {
    ProductNonNegative(x.n, Factorial(limit) / x.d);
  }

  /** With a lower bound of numerator 0 or 1, the original as written returns
      the Farey range from `lo` to `hi` once allowed `Gauge(hi)` turns. */
  lemma CorrectForUnitNumerator(limit: int, lo: Frac, hi: Frac, fuel: nat)
    requires Admissible(limit, lo, hi) && lo.n <= 1
    requires fuel >= Gauge(hi, limit)
    ensures MakeAsWritten(limit, lo, hi, fuel).Returns?
    ensures IsFareyRange(MakeAsWritten(limit, lo, hi, fuel).terms, limit, lo, hi)
  {
    if lo.n == 0 {
      ZeroStart(limit, lo, hi);
      var run := LoopFromUnit(limit, limit, hi, fuel);
      assert MakeAsWritten(limit, lo, hi, fuel) == Returns([lo, Frac(1, limit)] + run);
      FareyRangeCons(lo, [Frac(1, limit)] + run, limit, hi);
      assert [lo] + ([Frac(1, limit)] + run) == [lo, Frac(1, limit)] + run;
    } else {
      var run := LoopFromUnit(limit, lo.d, hi, fuel);
      MakeEmits(limit, lo, hi, fuel);
    }
  }

  /** The as-written loop from `1/b` towards a larger `hi` of the order. */
  lemma LoopFromUnit(limit: int, b: int, hi: Frac, fuel: nat) returns (run: seq<Frac>)
    requires 0 < b <= limit && OfOrder(hi, limit) && Before(Frac(1, b), hi)
    requires fuel >= Gauge(hi, limit)
    ensures LoopAsWritten(limit, FirstWindowAsWritten(limit, 1, b), hi, fuel) == Returns(run)
    ensures IsFareyRange([Frac(1, b)] + run, limit, Frac(1, b), hi)
  {
    AgreesForUnitNumerator(limit, b);
    var w := FirstWindowAsWritten(limit, 1, b);
    FirstWindowSteady(limit, 1, b, hi);
    GaugeNonNegative(Frac(w.c, w.d), limit);
    LoopFinishes(limit, w, hi, fuel);
    run := LoopAsWritten(limit, w, hi, fuel).terms;
  }

  /** A window the step leaves fixed and that is not at `hi` keeps the loop running. */
  lemma {:induction false} FixedWindowLoops(limit: int, w: Window, hi: Frac, fuel: nat)
    requires w.d != 0 && Step(limit, w) == w && (w.c != hi.n || w.d != hi.d)
    ensures LoopAsWritten(limit, w, hi, fuel) == StillLooping
    decreases fuel
  {
    if fuel > 0 {
      FixedWindowLoops(limit, w, hi, fuel - 1);
    }
  }

  /** A window past `hi` keeps the loop running. */
  lemma {:induction false} PassedLoops(limit: int, w: Window, hi: Frac, fuel: nat)
    requires Passed(limit, w, hi) && hi.d > 0
    ensures LoopAsWritten(limit, w, hi, fuel) == StillLooping
    decreases fuel
  {
    PassedStaysPassed(limit, w, hi);
    if fuel > 0 {
      PassedLoops(limit, Step(limit, w), hi, fuel - 1);
    }
  }

  /** Two windows that the step swaps, neither at `hi`, keep the loop running. */
  lemma {:induction false} SwappedWindowsLoop(limit: int, w: Window, hi: Frac, fuel: nat)
    requires w.d != 0 && Step(limit, w).d != 0 && Step(limit, Step(limit, w)) == w
    requires w.c != hi.n || w.d != hi.d
    requires Step(limit, w).c != hi.n || Step(limit, w).d != hi.d
    ensures LoopAsWritten(limit, w, hi, fuel) == StillLooping
    decreases fuel
  {
    if fuel > 1 {
      SwappedWindowsLoop(limit, w, hi, fuel - 2);
    }
  }

  /** Lower bound `a/b` with `a > 1` and `b <= limit < 2*b`, upper bound any
      other fraction: however many turns it is allowed, the original loops. */
  lemma StallsForever(limit: int, a: int, b: int, hi: Frac, fuel: nat)
    requires 1 < a && 0 < b <= limit < 2 * b && hi != Frac(a, b)
    ensures MakeAsWritten(limit, Frac(a, b), hi, fuel) == StillLooping
  {
    StallsAboveUnitNumerator(limit, a, b);
    FixedWindowLoops(limit, Window(a, b, a, b), hi, fuel);
  }

  /** For `a > 1` the as-written first window is `a/b` and a multiple `q*a/q*b`
      of it, with `q*b` still of the order. */
  lemma FirstWindowMultiple(limit: int, a: int, b: int) returns (q: int)
    requires 1 < a && 0 < b <= limit
    ensures 0 < q && q * b <= limit
    ensures FirstWindowAsWritten(limit, a, b) == Window(a, b, q * a, q * b)
  {
    NonNegativeDivision(1, a);
    QuotientIs(1, a, 0);
    NonNegativeDivision(limit - b, b);
    var k := (limit - b) / b;
    assert b * k <= limit - b;
    q := k + 1;
    assert q * a == k * a + a && q * b == k * b + b;
  }

  /** A window of two multiples `p*a/p*b` and `q*a/q*b` of `a/b` steps to
      another such window: the step maps `(p, q)` to `(q, k*q - p)`. */
  lemma MultiplesStep(limit: int, a: int, b: int, p: int, q: int) returns (r: int)
    requires 0 < a && 0 < b && 0 < p && 0 < q && q * b <= limit
    ensures 0 < r && r * b <= limit
    ensures Step(limit, Window(p * a, p * b, q * a, q * b)) == Window(q * a, q * b, r * a, r * b)
  {
    ProductPositive(q, b);
    ProductPositive(p, b);
    var x, d := p * b + limit, q * b;
    NonNegativeDivision(x, d);
    var k := x / d;
    assert d * k <= x < d * k + d;
    r := k * q - p;
    assert r * b == k * d - p * b by {
      MulAssociative(k, q, b);
    }
    assert r * a == k * (q * a) - p * a by {
      MulAssociative(k, q, a);
    }
    assert 0 < r * b;
    if r <= 0 {
      ProductNonNegative(-r, b);
      assert false;
    }
  }

  /** A fraction in lowest terms is no multiple `q*a/q*b` other than `a/b` itself. */
  lemma ReducedIsNoMultiple(a: int, b: int, q: int, hi: Frac)
    requires 0 < a && 0 < b && 0 < q && Reduced(hi) && hi != Frac(a, b)
    ensures q * a != hi.n || q * b != hi.d
  {
    if q * a == hi.n && q * b == hi.d {
      if q != 1 {
        MultipleDivides(q, a);
        MultipleDivides(q, b);
        GcdGreatest(hi.n, hi.d, q);
        DivisorBounded(q, 1);
      }
    }
  }

  /** From a window of two multiples of `a/b`, the loop never reaches a
      reduced `hi` other than `a/b`. */
  lemma {:induction false} MultiplesLoop(limit: int, a: int, b: int, p: int, q: int, hi: Frac, fuel: nat)
    requires 0 < a && 0 < b && 0 < p && 0 < q && q * b <= limit
    requires Reduced(hi) && hi != Frac(a, b)
    ensures LoopAsWritten(limit, Window(p * a, p * b, q * a, q * b), hi, fuel) == StillLooping
    decreases fuel
  {
    ReducedIsNoMultiple(a, b, q, hi);
    ProductPositive(q, b);
    if fuel > 0 {
      var r := MultiplesStep(limit, a, b, p, q);
      MultiplesLoop(limit, a, b, q, r, hi, fuel - 1);
    }
  }

  /** Lower bound `a/b` with `a > 1` of any order, upper bound any other
      fraction in lowest terms: however many turns it is allowed, the
      original loops. Every window is a pair of multiples of `a/b`. */
  lemma AboveUnitNeverReturns(limit: int, a: int, b: int, hi: Frac, fuel: nat)
    requires 1 < a && 0 < b <= limit && Reduced(hi) && hi != Frac(a, b)
    ensures MakeAsWritten(limit, Frac(a, b), hi, fuel) == StillLooping
  {
    var q := FirstWindowMultiple(limit, a, b);
    assert 1 * a == a && 1 * b == b;
    MultiplesLoop(limit, a, b, 1, q, hi, fuel);
  }

  /** Equal bounds `1/b`, and the full constructor with `limit == 1`: however
      many turns it is allowed, the original loops. */
  lemma UnitEqualBoundsLoop(limit: int, b: int, fuel: nat)
    requires 0 < b <= limit
    ensures MakeAsWritten(limit, Frac(1, b), Frac(1, b), fuel) == StillLooping
    ensures MakeAsWritten(1, Frac(0, 1), Frac(1, 1), fuel) == StillLooping
  {
    UnitEqualBoundsStartPassed(limit, b);
    PassedLoops(limit, FirstWindowAsWritten(limit, 1, b), Frac(1, b), fuel);
    UnitEqualBoundsStartPassed(1, 1);
    PassedLoops(1, FirstWindowAsWritten(1, 1, 1), Frac(1, 1), fuel);
  }

  /** Equal bounds `a/b` with `a > 1` and `b <= limit < 2*b`: the first `c/d`
      is the bound itself, so the original returns the bound twice. */
  lemma EqualBoundsTwice(limit: int, a: int, b: int, fuel: nat)
    requires 1 < a && 0 < b <= limit < 2 * b
    ensures MakeAsWritten(limit, Frac(a, b), Frac(a, b), fuel) == Returns([Frac(a, b), Frac(a, b)])
  {
    StallsAboveUnitNumerator(limit, a, b);
  }

  // The examples for `2/3` in order 6 take the order and the fraction as
  // parameters pinned by their preconditions. With literal arguments the
  // verifier would unfold the recursive `LoopAsWritten` on constants, which
  // costs far more than the proofs below.

  /** The as-written windows for `2/3` in order 6: `2/3, 4/6`, then `4/6, 2/3`. */
  lemma WindowsOfTwoThirds(limit: int, a: int, b: int)
    requires limit == 6 && a == 2 && b == 3
    ensures FirstWindowAsWritten(limit, a, b) == Window(a, b, 2 * a, 2 * b)
    ensures Step(limit, Window(a, b, 2 * a, 2 * b)) == Window(2 * a, 2 * b, a, b)
    ensures Step(limit, Window(2 * a, 2 * b, a, b)) == Window(a, b, 2 * a, 2 * b)
  {
    QuotientIs(1, a, 0);
    QuotientIs(limit - b, b, 1);
    QuotientIs(b + limit, 2 * b, 1);
    QuotientIs(2 * b + limit, b, 4);
  }

  /** Equal bounds `2/3` in order 6: the original returns `2/3, 4/6, 2/3`. */
  lemma EqualBoundsExample(limit: int, a: int, b: int, fuel: nat)
    requires limit == 6 && a == 2 && b == 3 && fuel >= 1
    ensures MakeAsWritten(limit, Frac(a, b), Frac(a, b), fuel)
      == Returns([Frac(a, b), Frac(2 * a, 2 * b), Frac(a, b)])
  {
    var hi := Frac(a, b);
    WindowsOfTwoThirds(limit, a, b);
    var w := FirstWindowAsWritten(limit, a, b);
    assert LoopAsWritten(limit, Step(limit, w), hi, fuel - 1) == Returns([hi]);
    LoopEmits(limit, w, hi, fuel);
    MakeEmits(limit, hi, hi, fuel);
  }

  /** Lower bound `2/3` in order 6, upper bound anything but `2/3` and `4/6`
      (say `3/4`): the windows `2/3, 4/6` and `4/6, 2/3` alternate, so however
      many turns it is allowed, the original loops. */
  lemma TwoThirdsCycles(limit: int, a: int, b: int, hi: Frac, fuel: nat)
    requires limit == 6 && a == 2 && b == 3
    requires hi != Frac(a, b) && hi != Frac(2 * a, 2 * b)
    ensures MakeAsWritten(limit, Frac(a, b), hi, fuel) == StillLooping
  {
    WindowsOfTwoThirds(limit, a, b);
    SwappedWindowsLoop(limit, Window(a, b, 2 * a, 2 * b), hi, fuel);
  }
}

=== FILE: euclid.dfy ===
/** The greatest common divisor as the original computes it, and the
    divisibility facts the rest of the model draws from it. */
module Euclid {
  import opened JavaInt

  /** Recursive Euclid with Java's remainder: `b == 0 ? a : GCD(b, a % b)`.
      It is defined on every pair of integers; its sign follows the
      remainder chain, so it can be negative when the inputs are. */
  function Gcd(a: int, b: int): (g: int)
    decreases Abs(b)
    ensures g == 0 <==> a == 0 && b == 0
  {
    if b == 0 then a
    else
      RemMagnitude(a, b);
      Gcd(b, Rem(a, b))
  }

  lemma ProductNonNegative(x: int, y: int)
    requires x >= 0 && y >= 0
    ensures x * y >= 0
  {
  }

  lemma ProductPositive(x: int, y: int)
    requires x > 0 && y > 0
    ensures x * y > 0
  {
  }

  lemma CancelPositive(a: int, b: int, c: int)
    requires c > 0 && a * c == b * c
    ensures a == b
  {
    if a < b {
      ProductPositive(b - a, c);
    } else if a > b {
      ProductPositive(a - b, c);
    }
  }

  lemma MulAssociative(x: int, y: int, z: int)
    ensures x * (y * z) == (x * y) * z
  {
  }

  /** A multiple of a positive `m` leaves no remainder modulo `m`. */
  lemma MultipleDivides(m: int, q: int)
    requires m > 0
    ensures (m * q) % m == 0
  {
    var r, p := (m * q) % m, (m * q) / m;
    var k := q - p;
    assert m * q == m * p + r;
    assert m * q == m * p + m * k;
    assert r == m * k;
    if k >= 1 {
      ProductNonNegative(m, k - 1);
    } else if k <= -1 {
      ProductNonNegative(m, -k - 1);
    }
  }

  /** A common divisor of `x` and `y` divides every integer combination of them. */
  lemma CombinationDivides(m: int, x: int, y: int, s: int, t: int)
    requires m > 0 && x % m == 0 && y % m == 0
    ensures (s * x + t * y) % m == 0
  {
    var i, j := x / m, y / m;
    assert x == m * i;
    assert y == m * j;
    assert s * x + t * y == m * (s * i + t * j);
    MultipleDivides(m, s * i + t * j);
  }

  /** A positive divisor of a positive number does not exceed it. */
  lemma DivisorBounded(m: int, x: int)
    requires m > 0 && x > 0 && x % m == 0
    ensures m <= x
  {
    var q := x / m;
    assert x == m * q;
    assert q >= 1;
  }

  lemma {:induction false} GcdNonNegative(a: int, b: int)
    requires a >= 0 && b >= 0
    ensures Gcd(a, b) >= 0
    decreases b
  {
    if b != 0 {
      NonNegativeDivision(a, b);
      GcdNonNegative(b, a % b);
    }
  }

  /** For non-negative inputs, not both zero, the GCD is positive and divides both. */
  lemma {:induction false} GcdDividesBoth(a: int, b: int)
    requires a >= 0 && b >= 0 && (a > 0 || b > 0)
    ensures Gcd(a, b) > 0 && a % Gcd(a, b) == 0 && b % Gcd(a, b) == 0
    decreases b
  {
    if b != 0 {
      NonNegativeDivision(a, b);
      GcdNonNegative(b, a % b);
      GcdDividesBoth(b, a % b);
      var g := Gcd(a, b);
      assert a == (a / b) * b + 1 * (a % b);
      CombinationDivides(g, b, a % b, a / b, 1);
    }
  }

  /** Every positive common divisor of non-negative inputs divides the GCD. */
  lemma {:induction false} GcdGreatest(a: int, b: int, m: int)
    requires a >= 0 && b >= 0 && m > 0 && a % m == 0 && b % m == 0
    ensures Gcd(a, b) % m == 0
    decreases b
  {
    if b != 0 {
      NonNegativeDivision(a, b);
      assert a % b == 1 * a + -(a / b) * b;
      CombinationDivides(m, a, b, 1, -(a / b));
      GcdGreatest(b, a % b, m);
    }
  }

  /** The magnitude of the GCD depends only on the magnitudes of the inputs. */
  lemma {:induction false} GcdMagnitude(a: int, b: int)
    ensures Abs(Gcd(a, b)) == Gcd(Abs(a), Abs(b))
    decreases Abs(b)
  {
    if b != 0 {
      RemMagnitude(a, b);
      NonNegativeDivision(Abs(a), Abs(b));
      GcdMagnitude(b, Rem(a, b));
      GcdNonNegative(Abs(b), Abs(a) % Abs(b));
    }
  }

  /** Negating both inputs negates the GCD. */
  lemma {:induction false} GcdNegate(a: int, b: int)
    ensures Gcd(-a, -b) == -Gcd(a, b)
    decreases Abs(b)
  {
    if b != 0 {
      DivNegateBoth(a, b);
      RemMagnitude(a, b);
      GcdNegate(b, Rem(a, b));
    }
  }

  /** An exact division can be undone by multiplying back. */
  lemma ExactQuotient(x: int, m: int)
    requires m > 0 && x % m == 0
    ensures x == m * (x / m)
    ensures x >= 0 ==> x / m >= 0
    ensures x > 0 ==> x / m > 0
  {
  }

  /** If `m*k` divides `m` for positive `m` and `k`, then `k` is 1. */
  lemma ScaledDivisorIsUnit(m: int, k: int)
    requires m > 0 && k > 0 && m % (m * k) == 0
    ensures k == 1
  {
    ProductNonNegative(m, k - 1);
    assert m * k == m + m * (k - 1);
    DivisorBounded(m * k, m);
  }

  /** Dividing a fraction's parts by their GCD leaves parts whose GCD is 1. */
  lemma ReducedByGcd(n: int, d: int)
    requires n >= 0 && d > 0
    ensures Gcd(n, d) > 0 && n % Gcd(n, d) == 0 && d % Gcd(n, d) == 0
    ensures Gcd(n / Gcd(n, d), d / Gcd(n, d)) == 1
  {
    GcdDividesBoth(n, d);
    var g := Gcd(n, d);
    ExactQuotient(n, g);
    ExactQuotient(d, g);
    var n', d' := n / g, d / g;
    GcdDividesBoth(n', d');
    var h := Gcd(n', d');
    ExactQuotient(n', h);
    ExactQuotient(d', h);
    var i, j := n' / h, d' / h;
    MulAssociative(g, h, i);
    MulAssociative(g, h, j);
    ProductPositive(g, h);
    MultipleDivides(g * h, i);
    MultipleDivides(g * h, j);
    GcdGreatest(n, d, g * h);
    ScaledDivisorIsUnit(g, h);
  }

  /** A positive common divisor of two numbers with a combination equal to 1 is 1. */
  lemma DivisorOfUnitCombination(m: int, x: int, y: int, s: int, t: int)
    requires m > 0 && x % m == 0 && y % m == 0 && s * x + t * y == 1
    ensures m == 1
  {
    CombinationDivides(m, x, y, s, t);
    DivisorBounded(m, 1);
  }

  /** Adjacent-fraction identity `b*c - a*d == 1` forces both fractions into lowest terms. */
  lemma NeighboursCoprime(a: int, b: int, c: int, d: int)
    requires a >= 0 && b >= 0 && c >= 0 && d >= 0
    requires b * c - a * d == 1
    ensures Gcd(a, b) == 1 && Gcd(c, d) == 1
  {
    assert a > 0 || b > 0;
    assert c > 0 || d > 0;
    GcdDividesBoth(a, b);
    assert c * b + (-d) * a == 1;
    DivisorOfUnitCombination(Gcd(a, b), b, a, c, -d);
    GcdDividesBoth(c, d);
    assert b * c + (-a) * d == 1;
    DivisorOfUnitCombination(Gcd(c, d), c, d, b, -a);
  }

  /** Extended Euclid on the same remainder chain: Bezout coefficients `(x, y)`
      with `a*x + b*y` equal to the GCD. */
  function ExtGcd(a: int, b: int): (r: (int, int))
    requires a >= 0 && b >= 0
    decreases b
    ensures a * r.0 + b * r.1 == Gcd(a, b)
  {
    if b == 0 then (1, 0)
    else
      NonNegativeDivision(a, b);
      var (x, y) := ExtGcd(b, a % b);
      BezoutStep(a, b, a / b, a % b, x, y);
      (y, x - (a / b) * y)
  }

  /** The back-substitution step of extended Euclid, for `a == q*b + r`. */
  lemma BezoutStep(a: int, b: int, q: int, r: int, x: int, y: int)
    requires a == q * b + r
    ensures a * y + b * (x - q * y) == b * x + r * y
  {
    MulAssociative(q, b, y);
    MulAssociative(b, q, y);
  }

  /** Scaling a Bezout identity `a*u + b*v == 1` by `x`. */
  lemma BezoutScaled(a: int, b: int, u: int, v: int, x: int)
    requires a * u + b * v == 1
    ensures u * (a * x) + (x * v) * b == x
  {
    calc {
      u * (a * x) + (x * v) * b;
    ==
      x * (a * u) + x * (b * v);
    ==
      x * (a * u + b * v);
    }
  }

  /** Euclid's lemma: a divisor coprime to one factor divides the other. */
  lemma CoprimeDividesFactor(a: int, b: int, x: int)
    requires a >= 0 && b > 0 && Gcd(a, b) == 1 && (a * x) % b == 0
    ensures x % b == 0
  {
    var e := ExtGcd(a, b);
    BezoutScaled(a, b, e.0, e.1, x);
    MultipleDivides(b, 1);
    CombinationDivides(b, a * x, b, e.0, x * e.1);
  }
}

=== FILE: farey_sequence.dfy ===
/** The Farey-sequence generator: bound normalisation and validation, the
    first adjacent pair, the O(1) recurrence, both constructors and the two
    queries. */
module FareySequence {
  import opened JavaInt
  import opened Results
  import opened Euclid
  import opened Fractions
  import opened FareySpec

  // ---------------------------------------------------------------------
  // Bounds

  /** `checkBound`: the range is accepted when `lo <= hi`, `lo > 0`, `hi <= 1`
      and neither denominator exceeds `limit`. A lower bound of exactly 0 is
      refused. */
  function CheckBound(limit: int, lo: Frac, hi: Frac): (ok: bool)
    requires lo.d != 0 && hi.d != 0
    ensures ok <==> && Value(lo) <= Value(hi)
                    && 0.0 < Value(lo)
                    && Value(hi) <= 1.0
                    && lo.d <= limit && hi.d <= limit
  {
    if Compare(lo, hi) > 0 then false
    else if Compare(lo, Frac(0, 1)) <= 0 then false
    else if Compare(hi, Frac(1, 1)) > 0 then false
    else if lo.d > limit || hi.d > limit then false
    else true
  }

  /** A fraction denotes a positive number exactly when its parts are non-zero with equal signs. */
  lemma ValuePositive(x: Frac)
    requires x.d != 0
    ensures 0.0 < Value(x) <==> x.n != 0 && (x.n > 0) == (x.d > 0)
  {
    var v := Value(x);
    assert v * (x.d as real) == x.n as real;
    if x.n != 0 && (x.n > 0) == (x.d > 0) {
      assert 0.0 < v;
    } else if x.n != 0 {
      assert v < 0.0;
    }
  }

  /** Two numbers divided exactly by the same `g` keep their ratio. */
  lemma CrossOfExactQuotients(n: int, d: int, g: int, p: int, q: int)
    requires p * g == n && q * g == d
    ensures p * d == n * q
  {
    calc {
      p * d;
    ==
      p * (q * g);
    ==  { MulAssociative(p, q, g); }
      (p * q) * g;
    ==
      (q * p) * g;
    ==  { MulAssociative(q, p, g); }
      q * (p * g);
    ==
      n * q;
    }
  }

  /** The quotients `n / GCD(n, d)` and `d / GCD(n, d)` for a non-negative `n` and a positive `d`. */
  lemma QuotientsOfNatural(n: int, d: int)
    requires n >= 0 && d > 0
    ensures Gcd(n, d) > 0
    ensures Div(n, Gcd(n, d)) * d == n * Div(d, Gcd(n, d))
    ensures Div(d, Gcd(n, d)) > 0 && Div(n, Gcd(n, d)) >= 0
    ensures Div(n, Gcd(n, d)) * Gcd(n, d) == n && Div(d, Gcd(n, d)) * Gcd(n, d) == d
    ensures Gcd(Div(n, Gcd(n, d)), Div(d, Gcd(n, d))) == 1
  {
    ReducedByGcd(n, d);
    var g := Gcd(n, d);
    NonNegativeDivision(n, g);
    NonNegativeDivision(d, g);
    ExactQuotient(n, g);
    ExactQuotient(d, g);
    CrossOfExactQuotients(n, d, g, n / g, d / g);
  }

  lemma QuotientsOfNegative(n: int, d: int)
    requires n < 0 && d < 0
    ensures Div(n, Gcd(n, d)) * d == n * Div(d, Gcd(n, d))
    ensures Div(n, Gcd(n, d)) > 0 && Div(d, Gcd(n, d)) > 0
    ensures Gcd(Div(n, Gcd(n, d)), Div(d, Gcd(n, d))) == 1
  {
    QuotientsOfNatural(-n, -d);
    var G := Gcd(-n, -d);
    GcdNegate(-n, -d);
    DivNegateBoth(-n, G);
    DivNegateBoth(-d, G);
    var P, Q := Div(-n, G), Div(-d, G);
    assert P * -G == n && Q * -G == d;
    CrossOfExactQuotients(n, d, -G, P, Q);
  }

  lemma QuotientsOfMixedSigns(n: int, d: int)
    requires n != 0 && d != 0 && (n > 0) != (d > 0)
    ensures Gcd(n, d) != 0
    ensures Div(n, Gcd(n, d)) * d == n * Div(d, Gcd(n, d))
    ensures Div(n, Gcd(n, d)) != 0 && Div(d, Gcd(n, d)) != 0
    ensures (Div(n, Gcd(n, d)) > 0) != (Div(d, Gcd(n, d)) > 0)
  {
    var g := Gcd(n, d);
    GcdMagnitude(n, d);
    GcdDividesBoth(Abs(n), Abs(d));
    DivSign(n, g);
    DivSign(d, g);
    DivExact(n, g);
    DivExact(d, g);
    CrossOfExactQuotients(n, d, g, Div(n, g), Div(d, g));
  }

  lemma QuotientsOfZero(d: int)
    requires d != 0
    ensures Gcd(0, d) == d && Div(0, Gcd(0, d)) == 0 && Div(d, Gcd(0, d)) == 1
  {
    assert Rem(0, d) == 0;
    assert Gcd(0, d) == Gcd(d, 0);
  }

  /** The quotients by the GCD, for every integer `n` and non-zero `d`: they
      keep the value of `n/d`, the denominator stays non-zero, and when the
      value is positive they are positive and coprime. */
  lemma Quotients(n: int, d: int)
    requires d != 0
    ensures Gcd(n, d) != 0
    ensures Div(d, Gcd(n, d)) != 0
    ensures Div(n, Gcd(n, d)) * d == n * Div(d, Gcd(n, d))
    ensures n == 0 ==> Div(n, Gcd(n, d)) == 0 && Div(d, Gcd(n, d)) == 1
    ensures n != 0 && (n > 0) == (d > 0) ==>
      && Div(n, Gcd(n, d)) > 0 && Div(d, Gcd(n, d)) > 0
      && Gcd(Div(n, Gcd(n, d)), Div(d, Gcd(n, d))) == 1
    ensures n != 0 && (n > 0) != (d > 0) ==>
      Div(n, Gcd(n, d)) != 0 && (Div(n, Gcd(n, d)) > 0) != (Div(d, Gcd(n, d)) > 0)
  {
    if n == 0 {
      QuotientsOfZero(d);
    } else if n > 0 && d > 0 {
      QuotientsOfNatural(n, d);
    } else if n < 0 && d < 0 {
      QuotientsOfNegative(n, d);
    } else {
      QuotientsOfMixedSigns(n, d);
    }
  }

  /** The ranged constructor's reduction of one bound: divide both parts by
      their GCD (an `ArithmeticException` when both are 0), then build the
      `Fraction` (refused when the denominator is 0). */
  function Normalize(n: int, d: int): (r: Result<Frac>)
    ensures r.Ok? <==> d != 0
    ensures r.Err? ==> r.error == (if n == 0 then DivisionByZero else ZeroDenominator)
    ensures r.Ok? ==> r.value.d != 0 && r.value.n * d == n * r.value.d
    ensures r.Ok? && 0.0 < Value(r.value) ==> Reduced(r.value)
    ensures n == 0 && d != 0 ==> r == Ok(Frac(0, 1))
  {
    var g := Gcd(n, d);
    if g == 0 then Err(DivisionByZero)
    else if d == 0 then MakeFraction(Div(n, g), Div(d, g))
    else
      Quotients(n, d);
      ValuePositive(Frac(Div(n, g), Div(d, g)));
      MakeFraction(Div(n, g), Div(d, g))
  }

  /** Reducing a fraction that is already in lowest terms gives it back. */
  lemma NormalizeKeepsReduced(x: Frac)
    requires Reduced(x)
    ensures Normalize(x.n, x.d) == Ok(x)
  {
    NonNegativeDivision(x.n, 1);
    NonNegativeDivision(x.d, 1);
  }

  /** Lower bound strictly below upper bound, both of order `limit`; when the
      lower bound is 0 the generator also needs `1/limit` below the upper bound.
      These are the inputs on which the generator's loop reaches the upper bound. */
  predicate Admissible(limit: int, lo: Frac, hi: Frac) {
    && OfOrder(lo, limit)
    && OfOrder(hi, limit)
    && Before(lo, hi)
    && (lo.n == 0 ==> Before(Frac(1, limit), hi))
  }

  /** The ranged constructor's set-up: reduce the lower bound, then the upper
      one (the first failure wins), then run `checkBound`. */
  function Bounds(limit: int, bn: int, bd: int, en: int, ed: int): (r: Result<(Frac, Frac)>)
    ensures r.Err? <==> bd == 0 || ed == 0 || !CheckBound(limit, Normalize(bn, bd).value, Normalize(en, ed).value)
    ensures bd == 0 ==> r == Err(if bn == 0 then DivisionByZero else ZeroDenominator)
    ensures bd != 0 && ed == 0 ==> r == Err(if en == 0 then DivisionByZero else ZeroDenominator)
    ensures r.Err? && bd != 0 && ed != 0 ==> r.error == InvalidRange
    ensures r.Ok? ==> && r.value.0.n * bd == bn * r.value.0.d
                      && r.value.1.n * ed == en * r.value.1.d
    ensures r.Ok? ==> && 0 < r.value.0.n && OfOrder(r.value.0, limit) && OfOrder(r.value.1, limit)
                      && !Before(r.value.1, r.value.0) && r.value.1.n <= r.value.1.d
    ensures r.Ok? && r.value.0 != r.value.1 ==> Admissible(limit, r.value.0, r.value.1)
  {
    match Normalize(bn, bd)
    case Err(e) => Err(e)
    case Ok(lo) =>
      match Normalize(en, ed)
      case Err(e) => Err(e)
      case Ok(hi) =>
        if CheckBound(limit, lo, hi) then
          ValuePositive(lo);
          assert Reduced(lo) && Reduced(hi);
          BeforeIsLess(lo, hi);
          BeforeIsLess(hi, Frac(1, 1));
          ReducedTrichotomy(lo, hi);
          Ok((lo, hi))
        else Err(InvalidRange)
  }

  // ---------------------------------------------------------------------
  // The recurrence

  /** Terms `a/b` (the last one emitted) and `c/d` (the next one) of the generator. */
  datatype Window = Window(a: int, b: int, c: int, d: int)

  /** An auxiliary pair `(c0, d0)` with `b*c0 - a*d0 == 1`, read off the
      Bezout coefficients of `a` and `b`. It exists for every reduced `a/b`. */
  function Seed(a: int, b: int): (r: (int, int))
    requires 0 <= a && 0 < b && Gcd(a, b) == 1
    ensures b * r.0 - a * r.1 == 1
  {
    var e := ExtGcd(a, b);
    (e.1, -e.0)
  }

  /** The first successor `c/d` of `a/b`: `k = (limit - d0) / b`, `c = k*a + c0`, `d = k*b + d0`. */
  function FirstWindow(limit: int, a: int, b: int): (w: Window)
    requires 0 <= a && 0 < b <= limit && Gcd(a, b) == 1
    ensures w.a == a && w.b == b
    ensures Neighbours(Frac(a, b), Frac(w.c, w.d))
    ensures 0 < w.d <= limit < b + w.d
  {
    var (c0, d0) := Seed(a, b);
    var k := (limit - d0) / b;
    SeededSuccessor(limit, a, b, c0, d0);
    Window(a, b, k * a + c0, k * b + d0)
  }

  /** From any auxiliary pair, `k = floor((limit - d0) / b)` moves it to the
      unique neighbour whose denominator lies in `(limit - b, limit]`. */
  lemma SeededSuccessor(limit: int, a: int, b: int, c0: int, d0: int)
    requires 0 < b && b * c0 - a * d0 == 1
    ensures var k := (limit - d0) / b;
      && b * (k * a + c0) - a * (k * b + d0) == 1
      && limit - b < k * b + d0 <= limit
  {
    var k := (limit - d0) / b;
    MulAssociative(b, k, a);
    MulAssociative(a, k, b);
    assert b * (k * a + c0) - a * (k * b + d0) == b * c0 - a * d0;
    assert limit - d0 == k * b + (limit - d0) % b;
  }

  /** One turn of the loop: `k = (b + limit) / d`, `e = k*c - a`, `f = k*d - b`,
      then shift the window. Whatever `k` is, the neighbour determinant is kept. */
  function Step(limit: int, w: Window): (r: Window)
    requires w.d != 0
    ensures r.a == w.c && r.b == w.d
    ensures r.b * r.c - r.a * r.d == w.b * w.c - w.a * w.d
  {
    var k := Div(w.b + limit, w.d);
    assert w.d * (k * w.c - w.a) - w.c * (k * w.d - w.b) == w.b * w.c - w.a * w.d by {
      MulAssociative(w.d, k, w.c);
      MulAssociative(w.c, k, w.d);
    }
    Window(w.c, w.d, k * w.c - w.a, k * w.d - w.b)
  }

  /** With `0 < d <= limit`, the new denominator satisfies `0 < f <= limit < d + f`. */
  lemma StepStaysInOrder(limit: int, w: Window)
    requires 0 < w.b && 0 < w.d <= limit
    ensures 0 < Step(limit, w).d <= limit < w.d + Step(limit, w).d
  {
    var k := Div(w.b + limit, w.d);
    NonNegativeDivision(w.b + limit, w.d);
    assert w.b + limit == k * w.d + (w.b + limit) % w.d;
  }

  // ---------------------------------------------------------------------
  // Termination measure

  function Factorial(n: int): (r: int)
    ensures r >= 1
    decreases n
  {
    if n <= 0 then 1
    else
      var f := Factorial(n - 1);
      ProductPositive(n, f);
      n * f
  }

  lemma {:induction false} FactorialDivisible(n: int, d: int)
    requires 1 <= d <= n
    ensures Factorial(n) % d == 0
    decreases n
  {
    if d == n {
      MultipleDivides(n, Factorial(n - 1));
    } else {
      FactorialDivisible(n - 1, d);
      ExactQuotient(Factorial(n - 1), d);
      MulAssociative(n, d, Factorial(n - 1) / d);
      assert Factorial(n) == d * (n * (Factorial(n - 1) / d));
      MultipleDivides(d, n * (Factorial(n - 1) / d));
    }
  }

  /** `x` scaled by `limit!`: an integer, since every denominator of order `limit` divides `limit!`. */
  function Gauge(x: Frac, limit: int): (g: int)
    requires 0 < x.d <= limit
  {
    x.n * (Factorial(limit) / x.d)
  }

  lemma GaugeTimesDenominators(x: Frac, y: Frac, limit: int)
    requires 0 < x.d <= limit && 0 < y.d <= limit
    ensures Gauge(x, limit) * (x.d * y.d) == (x.n * y.d) * Factorial(limit)
  {
    var F := Factorial(limit);
    FactorialDivisible(limit, x.d);
    ExactQuotient(F, x.d);
    var u := F / x.d;
    calc {
      (x.n * u) * (x.d * y.d);
    ==  { MulAssociative(x.n * u, x.d, y.d); }
      ((x.n * u) * x.d) * y.d;
    ==  { MulAssociative(x.n, u, x.d); }
      (x.n * (u * x.d)) * y.d;
    ==  { assert u * x.d == F; }
      (x.n * F) * y.d;
    ==  { MulAssociative(x.n, F, y.d); MulAssociative(x.n, y.d, F); }
      (x.n * y.d) * F;
    }
  }

  /** Equal products with positive factors `p` and `f` share the sign of `g` and `t`. */
  lemma ScaledSameSign(g: int, p: int, t: int, f: int)
    requires p > 0 && f > 0 && g * p == t * f
    ensures t >= 0 ==> g >= 0
    ensures t > 0 ==> g > 0
  {
    if t >= 0 {
      ProductNonNegative(t, f);
      if g < 0 {
        ProductPositive(-g, p);
      }
    }
    if t > 0 {
      ProductPositive(t, f);
      if g <= 0 {
        ProductNonNegative(-g, p);
      }
    }
  }

  lemma DifferenceScaled(a: int, b: int, p: int)
    ensures (a - b) * p == a * p - b * p
  {
  }

  /** The gauge is monotone in the value of the fraction. */
  lemma GaugeMonotone(x: Frac, y: Frac, limit: int)
    requires 0 < x.d <= limit && 0 < y.d <= limit
    ensures x.n * y.d <= y.n * x.d ==> Gauge(x, limit) <= Gauge(y, limit)
    ensures Before(x, y) ==> Gauge(x, limit) < Gauge(y, limit)
  {
    var F := Factorial(limit);
    var P := x.d * y.d;
    GaugeTimesDenominators(x, y, limit);
    GaugeTimesDenominators(y, x, limit);
    assert y.d * x.d == P;
    ProductPositive(x.d, y.d);
    var gx, gy := Gauge(x, limit), Gauge(y, limit);
    var u, v := y.n * x.d, x.n * y.d;
    assert gy * P == u * F && gx * P == v * F;
    DifferenceScaled(gy, gx, P);
    DifferenceScaled(u, v, F);
    ScaledSameSign(gy - gx, P, u - v, F);
  }

  // ---------------------------------------------------------------------
  // Generation

  /** The loop's window: `a/b` is the last term emitted and lies below `hi`,
      `c/d` is its neighbour of order `limit` and does not pass `hi`. */
  predicate Steady(limit: int, w: Window, hi: Frac) {
    && 0 <= w.a && 0 < w.b <= limit
    && Neighbours(Frac(w.a, w.b), Frac(w.c, w.d))
    && 0 < w.d <= limit < w.b + w.d
    && Before(Frac(w.a, w.b), hi)
    && !Before(hi, Frac(w.c, w.d))
  }

  /** While `c/d` is not `hi`, it is a term of order `limit` below `hi`, one
      step keeps the window steady, and the gauge of `c/d` climbs towards
      that of `hi`. */
  lemma Advance(limit: int, w: Window, hi: Frac)
    requires Steady(limit, w, hi) && OfOrder(hi, limit)
    requires w.c != hi.n || w.d != hi.d
    ensures OfOrder(Frac(w.c, w.d), limit)
    ensures Steady(limit, Step(limit, w), hi)
    ensures 0 <= Gauge(hi, limit) - Gauge(Frac(w.c, w.d), limit)
    ensures Gauge(hi, limit) - Gauge(Frac(Step(limit, w).c, Step(limit, w).d), limit)
      < Gauge(hi, limit) - Gauge(Frac(w.c, w.d), limit)
  {
    var next := Frac(w.c, w.d);
    assert next.n > 0 by {
      ProductNonNegative(w.a, w.d);
    }
    NeighboursCoprime(w.a, w.b, w.c, w.d);
    ReducedTrichotomy(next, hi);
    StepStaysInOrder(limit, w);
    GaugeMonotone(next, hi, limit);
    var w' := Step(limit, w);
    var after := Frac(w'.c, w'.d);
    if Before(hi, after) {
      NothingBetweenNeighbours(next, hi, after);
    }
    GaugeMonotone(next, after, limit);
  }

  /** The first window is steady: `hi` cannot lie strictly between `a/b` and
      its first successor, whose mediant already exceeds order `limit`. */
  lemma FirstWindowSteady(limit: int, a: int, b: int, hi: Frac)
    requires 0 <= a && 0 < b <= limit && Gcd(a, b) == 1
    requires OfOrder(hi, limit) && Before(Frac(a, b), hi)
    ensures Steady(limit, FirstWindow(limit, a, b), hi)
  {
    var w := FirstWindow(limit, a, b);
    if Before(hi, Frac(w.c, w.d)) {
      NothingBetweenNeighbours(Frac(w.a, w.b), hi, Frac(w.c, w.d));
    }
  }

  /** When the lower bound is 0 it is `0/1`, and `1/limit` is its neighbour of order `limit`. */
  lemma ZeroStart(limit: int, lo: Frac, hi: Frac)
    requires Admissible(limit, lo, hi) && lo.n == 0
    ensures lo == Frac(0, 1)
    ensures OfOrder(Frac(1, limit), limit) && Neighbours(lo, Frac(1, limit)) && lo.d + limit > limit
  {
    QuotientsOfZero(lo.d);
    NeighboursCoprime(0, 1, 1, limit);
  }

  /** `makeFareySequence`: emit `lo` (and `1/limit` when `lo` is 0), seed the
      first adjacent pair, then apply the recurrence until the next term is
      `hi` component-wise, and emit `hi`. */
  method MakeFareySequence(limit: int, lo: Frac, hi: Frac) returns (s: seq<Frac>)
    requires Admissible(limit, lo, hi)
    ensures IsFareyRange(s, limit, lo, hi)
    ensures lo.n == 0 ==> |s| >= 2 && s[1] == Frac(1, limit)
  {
    s := [lo];
    var a, b;
    if lo.n == 0 {
      ZeroStart(limit, lo, hi);
      ChainExtend(s, Frac(1, limit), limit);
      s := s + [Frac(1, limit)];
      a, b := 1, limit;
    } else {
      a, b := lo.n, lo.d;
    }
    var w := FirstWindow(limit, a, b);
    FirstWindowSteady(limit, a, b, hi);
    while w.c != hi.n || w.d != hi.d
      invariant 1 <= |s| && s[0] == lo && s[|s| - 1] == Frac(w.a, w.b)
      invariant Chain(s, limit)
      invariant lo.n == 0 ==> |s| >= 2 && s[1] == Frac(1, limit)
      invariant Steady(limit, w, hi)
      decreases Gauge(hi, limit) - Gauge(Frac(w.c, w.d), limit)
    {
      Advance(limit, w, hi);
      ChainExtend(s, Frac(w.c, w.d), limit);
      s := s + [Frac(w.c, w.d)];
      w := Step(limit, w);
    }
    ChainExtend(s, hi, limit);
    s := s + [hi];
  }

  // ---------------------------------------------------------------------
  // Constructors and queries

  /** A built sequence, immutable after construction. */
  datatype Farey = Farey(terms: seq<Frac>) {

    /** `getSize`. */
    function Size(): nat {
      |terms|
    }

    /** `getFrac(pos)`: numerator and denominator of term `pos`, or `(0, 0)`
        when `pos` is outside `[0, Size())`. */
    function FracAt(pos: int): (int, int) {
      if pos >= |terms| || pos < 0 then (0, 0)
      else (terms[pos].n, terms[pos].d)
    }
  }

  /** The full constructor: the sequence of order `limit` from `0/1` to `1/1`.
      `limit == 0` fails building `1/limit`. With `limit == 1` the original
      loop never meets its exit test (see `AsWritten.UnitEqualBoundsLoop`),
      and negative limits are outside this model; both are excluded. */
  method FromLimit(limit: int) returns (r: Result<Farey>)
    requires limit == 0 || limit >= 2
    ensures r.Ok? <==> limit >= 2
    ensures r.Err? ==> r.error == ZeroDenominator
    ensures r.Ok? ==> && IsFareyRange(r.value.terms, limit, Frac(0, 1), Frac(1, 1))
                      && r.value.terms[1] == Frac(1, limit)
  {
    if limit == 0 {
      return Err(ZeroDenominator);
    }
    assert Gcd(0, 1) == 1 && Gcd(1, 1) == 1;
    var s := MakeFareySequence(limit, Frac(0, 1), Frac(1, 1));
    return Ok(Farey(s));
  }

  /** The ranged constructor: reduce and check the bounds, then generate.
      Bounds that reduce to the same fraction are excluded, because the
      original has no one behaviour there: it loops for `1/b`
      (`AsWritten.UnitEqualBoundsLoop`), returns the bound twice for `a > 1`
      with `limit < 2*b` (`AsWritten.EqualBoundsTwice`), and returns
      `2/3, 4/6, 2/3` for `2/3` in order 6 (`AsWritten.EqualBoundsExample`). */
  method FromRange(limit: int, bn: int, bd: int, en: int, ed: int) returns (r: Result<Farey>)
    requires Bounds(limit, bn, bd, en, ed).Ok? ==> Bounds(limit, bn, bd, en, ed).value.0 != Bounds(limit, bn, bd, en, ed).value.1
    ensures r.Err? <==> Bounds(limit, bn, bd, en, ed).Err?
    ensures r.Err? ==> r.error == Bounds(limit, bn, bd, en, ed).error
    ensures r.Ok? ==> IsFareyRange(r.value.terms, limit, Bounds(limit, bn, bd, en, ed).value.0, Bounds(limit, bn, bd, en, ed).value.1)
  {
    var bounds := Bounds(limit, bn, bd, en, ed);
    if bounds.Err? {
      return Err(bounds.error);
    }
    var (lo, hi) := bounds.value;
    var s := MakeFareySequence(limit, lo, hi);
    return Ok(Farey(s));
  }

  /** What the queries read from a built sequence: `Size` counts its terms,
      `FracAt` returns the bounds at the two ends, returns a fraction in
      lowest terms (so never a zero denominator) for a valid position, and
      returns `(0, 0)` exactly for the
      positions outside the sequence, such as `-1` and `Size()`. */
  lemma Queries(f: Farey, limit: int, lo: Frac, hi: Frac)
    requires IsFareyRange(f.terms, limit, lo, hi)
    ensures f.Size() >= 1
    ensures f.FracAt(0) == (lo.n, lo.d) && f.FracAt(f.Size() - 1) == (hi.n, hi.d)
    ensures forall pos :: f.FracAt(pos).1 == 0 <==> !(0 <= pos < f.Size())
    ensures f.FracAt(-1) == (0, 0) && f.FracAt(f.Size()) == (0, 0)
    ensures forall pos :: 0 <= pos < f.Size() ==> Gcd(f.FracAt(pos).0, f.FracAt(pos).1) == 1
  {
    forall pos | 0 <= pos < f.Size()
      ensures f.FracAt(pos).1 > 0
    {
      assert OfOrder(f.terms[pos], limit);
    }
  }
}

=== FILE: farey_spec.dfy ===
/** What a Farey sequence of order `limit` between two bounds is, and the
    consequences of that definition: the terms are sorted, they are all the
    fractions of that order in the range, and no other sequence qualifies. */
module FareySpec {
  import opened Euclid
  import opened Fractions

  /** `x` belongs to the Farey set of order `limit`: lowest terms, denominator in `1..limit`. */
  predicate OfOrder(x: Frac, limit: int) {
    Reduced(x) && x.d <= limit
  }

  /** Terms `i` and `i+1` are neighbours whose mediant has a denominator above `limit`. */
  predicate Adjacent(s: seq<Frac>, i: int, limit: int)
    requires 0 <= i < |s| - 1
  {
    Neighbours(s[i], s[i + 1]) && s[i].d + s[i + 1].d > limit
  }

  /** Every term of `s` is of order `limit` and every consecutive pair is adjacent. */
  predicate Chain(s: seq<Frac>, limit: int) {
    && (forall i :: 0 <= i < |s| ==> OfOrder(s[i], limit))
    && (forall i :: 0 <= i < |s| - 1 ==> Adjacent(s, i, limit))
  }

  /** `s` runs from `lo` to `hi` through fractions of order `limit`, each
      consecutive pair being Farey neighbours in that order. */
  predicate IsFareyRange(s: seq<Frac>, limit: int, lo: Frac, hi: Frac) {
    && |s| >= 1
    && s[0] == lo
    && s[|s| - 1] == hi
    && Chain(s, limit)
  }

  /** Appending a neighbour of the last term keeps a chain a chain. */
  lemma ChainExtend(s: seq<Frac>, x: Frac, limit: int)
    requires |s| >= 1 && Chain(s, limit) && OfOrder(x, limit)
    requires Neighbours(s[|s| - 1], x) && s[|s| - 1].d + x.d > limit
    ensures Chain(s + [x], limit)
  {
    var t := s + [x];
    forall i | 0 <= i < |t| - 1
      ensures Adjacent(t, i, limit)
    {
      if i < |s| - 1 {
        assert Adjacent(s, i, limit);
      }
    }
  }

  /** Putting a left neighbour of order `limit` in front of a Farey range gives a Farey range. */
  lemma FareyRangeCons(x: Frac, s: seq<Frac>, limit: int, hi: Frac)
    requires |s| >= 1 && IsFareyRange(s, limit, s[0], hi)
    requires OfOrder(x, limit) && Neighbours(x, s[0]) && x.d + s[0].d > limit
    ensures IsFareyRange([x] + s, limit, x, hi)
  {
    var t := [x] + s;
    forall i | 0 <= i < |t| - 1
      ensures Adjacent(t, i, limit)
    {
      if i > 0 {
        assert Adjacent(s, i - 1, limit);
      }
    }
    forall i | 0 <= i < |t|
      ensures OfOrder(t[i], limit)
    {
      if i > 0 {
        assert t[i] == s[i - 1];
      }
    }
  }

  /** Adjacency alone makes a chain: neighbouring terms are in lowest terms. */
  lemma NeighbourChain(s: seq<Frac>, limit: int)
    requires |s| >= 2
    requires forall i :: 0 <= i < |s| ==> 0 <= s[i].n && 0 < s[i].d <= limit
    requires forall i :: 0 <= i < |s| - 1 ==> Adjacent(s, i, limit)
    ensures Chain(s, limit)
  {
    forall i | 0 <= i < |s|
      ensures OfOrder(s[i], limit)
    {
      var j := if i < |s| - 1 then i else i - 1;
      assert Adjacent(s, j, limit);
      NeighboursCoprime(s[j].n, s[j].d, s[j + 1].n, s[j + 1].d);
    }
  }

  lemma FareyRangeTail(s: seq<Frac>, limit: int, lo: Frac, hi: Frac)
    requires IsFareyRange(s, limit, lo, hi) && |s| >= 2
    ensures IsFareyRange(s[1..], limit, s[1], hi)
  {
    forall i | 0 <= i < |s[1..]| - 1
      ensures Adjacent(s[1..], i, limit)
    {
      assert Adjacent(s, i + 1, limit);
    }
  }

  /** Every term lies strictly below every later term. */
  lemma {:induction false} FareyRangeIncreasing(s: seq<Frac>, limit: int, lo: Frac, hi: Frac)
    requires IsFareyRange(s, limit, lo, hi)
    ensures forall i, j :: 0 <= i < j < |s| ==> Before(s[i], s[j])
    decreases |s|
  {
    if |s| >= 2 {
      FareyRangeTail(s, limit, lo, hi);
      FareyRangeIncreasing(s[1..], limit, s[1], hi);
      forall i, j | 0 <= i < j < |s|
        ensures Before(s[i], s[j])
      {
        assert Adjacent(s, 0, limit);
        NeighboursOrdered(s[0], s[1]);
        if i > 0 {
          assert Before(s[1..][i - 1], s[1..][j - 1]);
        } else if j > 1 {
          assert Before(s[1..][0], s[1..][j - 1]);
          BeforeTransitive(s[0], s[1], s[j]);
        }
      }
    }
  }

  /** Every term is a fraction of order `limit` between the bounds. */
  lemma FareyRangeSound(s: seq<Frac>, limit: int, lo: Frac, hi: Frac)
    requires IsFareyRange(s, limit, lo, hi)
    ensures forall i :: 0 <= i < |s| ==> OfOrder(s[i], limit) && !Before(s[i], lo) && !Before(hi, s[i])
    ensures |s| >= 2 ==> Before(lo, hi)
  {
    FareyRangeIncreasing(s, limit, lo, hi);
    forall i | 0 <= i < |s|
      ensures !Before(s[i], lo) && !Before(hi, s[i])
    {
      if 0 < i {
        assert Before(s[0], s[i]);
      }
      if i < |s| - 1 {
        assert Before(s[i], s[|s| - 1]);
      }
    }
  }

  /** Every fraction of order `limit` between the bounds is a term. */
  lemma {:induction false} FareyRangeComplete(s: seq<Frac>, limit: int, lo: Frac, hi: Frac, p: Frac)
    requires IsFareyRange(s, limit, lo, hi)
    requires OfOrder(p, limit) && !Before(p, lo) && !Before(hi, p)
    ensures p in s
    decreases |s|
  {
    if p.n * lo.d == lo.n * p.d {
      SameValueSameFraction(p, lo);
    } else if |s| == 1 {
      assert Before(hi, p);
    } else {
      assert Adjacent(s, 0, limit);
      if Before(p, s[1]) {
        NothingBetweenNeighbours(s[0], p, s[1]);
      } else {
        FareyRangeTail(s, limit, lo, hi);
        FareyRangeComplete(s[1..], limit, s[1], hi, p);
      }
    }
  }

  /** The definition leaves no freedom: two sequences that both qualify are equal. */
  lemma {:induction false} FareyRangeUnique(s: seq<Frac>, t: seq<Frac>, limit: int, lo: Frac, hi: Frac)
    requires IsFareyRange(s, limit, lo, hi) && IsFareyRange(t, limit, lo, hi)
    ensures s == t
    decreases |s|
  {
    FareyRangeSound(s, limit, lo, hi);
    FareyRangeSound(t, limit, lo, hi);
    if |s| == 1 || |t| == 1 {
      assert !Before(lo, hi) by {
        assert Before(lo, hi) ==> lo.n * hi.d < lo.n * hi.d;
      }
      assert |s| == 1 && |t| == 1;
    } else {
      assert Adjacent(s, 0, limit) && Adjacent(t, 0, limit);
      SuccessorUnique(lo, s[1], t[1], limit);
      FareyRangeTail(s, limit, lo, hi);
      FareyRangeTail(t, limit, lo, hi);
      FareyRangeUnique(s[1..], t[1..], limit, s[1], hi);
      assert s == [s[0]] + s[1..];
      assert t == [t[0]] + t[1..];
    }
  }
}

=== FILE: fractions.dfy ===
/** Fractions as pairs of integers, compared exactly, and the facts about
    adjacent fractions on which the Farey recurrence rests. */
module Fractions {
  import opened Results
  import opened Euclid

  /** The fraction `n/d`, stored as given (not reduced). */
  datatype Frac = Frac(n: int, d: int)

  /** The `Fraction` constructor: a zero denominator is refused. */
  function MakeFraction(num: int, den: int): (r: Result<Frac>)
    ensures r.Ok? <==> den != 0
    ensures r.Ok? ==> r.value.n == num && r.value.d == den
    ensures r.Err? ==> r.error == ZeroDenominator
  {
    if den == 0 then Err(ZeroDenominator) else Ok(Frac(num, den))
  }

  /** The rational number a fraction denotes. */
  function Value(x: Frac): (v: real)
    requires x.d != 0
  {
    x.n as real / x.d as real
  }

  /** Scaling a difference by a non-zero `s` preserves its sign up to the sign of `s`. */
  lemma ScaledSign(t: real, s: real, u: real)
    requires s != 0.0 && t * s == u
    ensures t < 0.0 <==> u * s < 0.0
    ensures t == 0.0 <==> u == 0.0
  {
    assert u * s == t * (s * s);
    assert s * s > 0.0;
  }

  /** The sign of `(x.n*y.d - y.n*x.d) * (x.d*y.d)` is the sign of `Value(x) - Value(y)`. */
  lemma CrossSign(x: Frac, y: Frac)
    requires x.d != 0 && y.d != 0
    ensures var s := (x.n * y.d - y.n * x.d) * (x.d * y.d);
      (s < 0 <==> Value(x) < Value(y)) && (s == 0 <==> Value(x) == Value(y))
  {
    var p, q := x.d as real, y.d as real;
    var t := Value(x) - Value(y);
    assert Value(x) * p == x.n as real;
    assert Value(y) * q == y.n as real;
    var u := (x.n * y.d - y.n * x.d) as real;
    assert t * (p * q) == u by {
      calc {
        t * (p * q);
      ==
        (Value(x) * p) * q - (Value(y) * q) * p;
      ==
        (x.n as real) * q - (y.n as real) * p;
      }
    }
    ScaledSign(t, p * q, u);
    assert ((x.n * y.d - y.n * x.d) * (x.d * y.d)) as real == u * (p * q);
  }

  /** `compareTo` without floating point: -1, 0 or 1 as `x` is below, at or above `y`. */
  function Compare(x: Frac, y: Frac): (r: int)
    requires x.d != 0 && y.d != 0
    ensures -1 <= r <= 1
    ensures r < 0 <==> Value(x) < Value(y)
    ensures r == 0 <==> Value(x) == Value(y)
    ensures r > 0 <==> Value(x) > Value(y)
  {
    CrossSign(x, y);
    var s := (x.n * y.d - y.n * x.d) * (x.d * y.d);
    if s < 0 then -1 else if s == 0 then 0 else 1
  }

  /** `x` lies strictly below `y`, for fractions with positive denominators. */
  predicate Before(x: Frac, y: Frac) {
    x.n * y.d < y.n * x.d
  }

  lemma BeforeIsLess(x: Frac, y: Frac)
    requires x.d > 0 && y.d > 0
    ensures Before(x, y) <==> Value(x) < Value(y)
    ensures x.n * y.d == y.n * x.d <==> Value(x) == Value(y)
  {
    CrossSign(x, y);
    ProductPositive(x.d, y.d);
    var s := (x.n * y.d - y.n * x.d) * (x.d * y.d);
    if x.n * y.d - y.n * x.d < 0 {
      assert s < 0;
    } else if x.n * y.d - y.n * x.d > 0 {
      ProductPositive(x.n * y.d - y.n * x.d, x.d * y.d);
    }
  }

  lemma BeforeTransitive(x: Frac, y: Frac, z: Frac)
    requires x.d > 0 && y.d > 0 && z.d > 0
    requires Before(x, y) && Before(y, z)
    ensures Before(x, z)
  {
    BeforeIsLess(x, y);
    BeforeIsLess(y, z);
    BeforeIsLess(x, z);
  }

  /** `x` and `y` are Farey neighbours: `x.d*y.n - x.n*y.d == 1`. */
  predicate Neighbours(x: Frac, y: Frac) {
    x.d * y.n - x.n * y.d == 1
  }

  lemma NeighboursOrdered(x: Frac, y: Frac)
    requires Neighbours(x, y)
    ensures Before(x, y)
  {
  }

  /** The identity `q*(b*c - a*d) == b*(c*q - d*p) + d*(b*p - a*q)`. */
  lemma MediantIdentity(a: int, b: int, c: int, d: int, p: int, q: int)
    ensures q * (b * c - a * d) == b * (c * q - d * p) + d * (b * p - a * q)
  {
  }

  /** Between two neighbours lies no fraction whose denominator is smaller
      than the sum of theirs. */
  lemma NothingBetweenNeighbours(x: Frac, z: Frac, y: Frac)
    requires x.d > 0 && y.d > 0 && z.d > 0
    requires Neighbours(x, y) && Before(x, z) && Before(z, y)
    ensures z.d >= x.d + y.d
  {
    MediantIdentity(x.n, x.d, y.n, y.d, z.n, z.d);
    var u, v := y.n * z.d - y.d * z.n, x.d * z.n - x.n * z.d;
    assert u >= 1 && v >= 1;
    ProductNonNegative(x.d, u - 1);
    ProductNonNegative(y.d, v - 1);
    assert x.d * u == x.d + x.d * (u - 1);
    assert y.d * v == y.d + y.d * (v - 1);
  }

  /** The mediant of two neighbours lies strictly between them and is a
      neighbour of each. */
  lemma MediantBetween(x: Frac, y: Frac)
    requires x.d > 0 && y.d > 0 && Neighbours(x, y)
    ensures var m := Frac(x.n + y.n, x.d + y.d);
      Before(x, m) && Before(m, y) && Neighbours(x, m) && Neighbours(m, y)
  {
  }

  /** The mediant is the only fraction between two neighbours whose
      denominator is the sum of theirs, so with `NothingBetweenNeighbours`
      it is the unique one of smallest denominator. */
  lemma MediantOnlyAtThatDenominator(x: Frac, z: Frac, y: Frac)
    requires x.d > 0 && y.d > 0 && z.d > 0
    requires Neighbours(x, y) && Before(x, z) && Before(z, y)
    requires z.d == x.d + y.d
    ensures z == Frac(x.n + y.n, x.d + y.d)
  {
    MediantIdentity(x.n, x.d, y.n, y.d, z.n, z.d);
    var u, v := y.n * z.d - y.d * z.n, x.d * z.n - x.n * z.d;
    assert u >= 1 && v >= 1;
    ProductNonNegative(x.d, u - 1);
    ProductNonNegative(y.d, v - 1);
    assert x.d * u == x.d + x.d * (u - 1);
    assert y.d * v == y.d + y.d * (v - 1);
    assert v == 1 by {
      if v > 1 {
        ProductPositive(y.d, v - 1);
      }
    }
    assert z.n * x.d == (x.n + y.n) * x.d;
    CancelPositive(z.n, x.n + y.n, x.d);
  }

  /** A fraction in lowest terms with a non-negative numerator and a positive denominator. */
  predicate Reduced(x: Frac) {
    0 <= x.n && 0 < x.d && Gcd(x.n, x.d) == 1
  }

  /** Two fractions in lowest terms that denote the same number are the same pair. */
  lemma SameValueSameFraction(x: Frac, y: Frac)
    requires Reduced(x) && Reduced(y)
    requires x.n * y.d == y.n * x.d
    ensures x == y
  {
    MultipleDivides(x.d, y.n);
    assert x.n * y.d == x.d * y.n;
    CoprimeDividesFactor(x.n, x.d, y.d);
    MultipleDivides(y.d, x.n);
    assert y.n * x.d == y.d * x.n;
    CoprimeDividesFactor(y.n, y.d, x.d);
    DivisorBounded(x.d, y.d);
    DivisorBounded(y.d, x.d);
    assert x.d == y.d;
    CancelPositive(x.n, y.n, y.d);
  }

  /** Fractions in lowest terms are ordered totally by `Before`, with equality of pairs in the middle. */
  lemma ReducedTrichotomy(x: Frac, y: Frac)
    requires Reduced(x) && Reduced(y)
    ensures Before(x, y) || x == y || Before(y, x)
  {
    if !Before(x, y) && !Before(y, x) {
      SameValueSameFraction(x, y);
    }
  }

  /** A fraction has at most one right neighbour whose denominator stays
      within `limit` while its sum with the fraction's exceeds `limit`. */
  lemma SuccessorUnique(x: Frac, y: Frac, y': Frac, limit: int)
    requires 0 <= x.n && x.d > 0
    requires Neighbours(x, y) && 0 < y.d <= limit < x.d + y.d
    requires Neighbours(x, y') && 0 < y'.d <= limit < x.d + y'.d
    ensures y == y'
  {
    NeighboursOrdered(x, y);
    NeighboursOrdered(x, y');
    if Before(y, y') {
      NothingBetweenNeighbours(x, y, y');
    } else if Before(y', y) {
      NothingBetweenNeighbours(x, y', y);
    } else {
      assert y.n >= 0 by {
        ProductNonNegative(x.n, y.d);
      }
      assert y'.n >= 0 by {
        ProductNonNegative(x.n, y'.d);
      }
      NeighboursCoprime(x.n, x.d, y.n, y.d);
      NeighboursCoprime(x.n, x.d, y'.n, y'.d);
      SameValueSameFraction(y, y');
    }
  }
}

=== FILE: java_int.dfy ===
/** Java's integer division and remainder.

    Dafny's `/` and `%` are Euclidean (the remainder is never negative);
    Java's `/` truncates toward zero and its `%` carries the sign of the
    dividend. Integers are unbounded here: 32-bit wrap-around is not modelled. */
module JavaInt {

  function Abs(x: int): (m: nat) {
    if x < 0 then -x else x
  }

  /** Java `a / b`: the quotient of the magnitudes, negated when the signs differ. */
  function Div(a: int, b: int): (q: int)
    requires b != 0
  {
    if (a < 0) == (b < 0) then Abs(a) / Abs(b) else -(Abs(a) / Abs(b))
  }

  /** Java `a % b`, defined by the language as `a - (a / b) * b`. */
  function Rem(a: int, b: int): (r: int)
    requires b != 0
  {
    a - Div(a, b) * b
  }

  /** The remainder's magnitude is the Euclidean remainder of the magnitudes,
      and a non-zero remainder has the sign of the dividend. */
  lemma RemMagnitude(a: int, b: int)
    requires b != 0
    ensures Abs(Rem(a, b)) == Abs(a) % Abs(b)
    ensures Abs(Rem(a, b)) < Abs(b)
    ensures a >= 0 ==> Rem(a, b) >= 0
    ensures a < 0 ==> Rem(a, b) <= 0
  {
    var q, r := Abs(a) / Abs(b), Abs(a) % Abs(b);
    assert Abs(a) == q * Abs(b) + r;
    var t := Div(a, b) * b;
    if b > 0 {
      assert Abs(b) == b;
      assert t == (if a >= 0 then q * b else -(q * b));
    } else {
      assert Abs(b) == -b;
      assert q * b == -(q * Abs(b));
      assert t == (if a >= 0 then q * Abs(b) else -(q * Abs(b)));
    }
    assert Rem(a, b) == (if a >= 0 then r else -r);
  }

  /** On a non-negative dividend and a positive divisor Java and Dafny agree. */
  lemma NonNegativeDivision(a: int, b: int)
    requires a >= 0 && b > 0
    ensures Div(a, b) == a / b && Rem(a, b) == a % b
  {
  }

  /** Negating both operands leaves the quotient unchanged and negates the remainder. */
  lemma DivNegateBoth(a: int, b: int)
    requires b != 0
    ensures Div(-a, -b) == Div(a, b)
    ensures Rem(-a, -b) == -Rem(a, b)
  {
  }

  /** When the divisor's magnitude divides the dividend's, the division is exact. */
  lemma DivExact(a: int, b: int)
    requires b != 0 && Abs(a) % Abs(b) == 0
    ensures Div(a, b) * b == a
  {
    RemMagnitude(a, b);
  }

  /** An exact non-zero quotient has the product of the operands' signs. */
  lemma DivSign(a: int, b: int)
    requires a != 0 && b != 0 && Abs(a) % Abs(b) == 0
    ensures Div(a, b) != 0
    ensures Div(a, b) > 0 <==> (a > 0) == (b > 0)
  {
    DivExact(a, b);
  }
}

=== FILE: results.dfy ===
/** Failure values of the Farey-sequence builder.

    The original program ends the process on bad input (a zero denominator,
    a rejected range) or lets an `ArithmeticException` escape; here each of
    those paths returns an `Err` instead. */
module Results {

  datatype Error =
    | DivisionByZero    // integer division by a zero GCD (both parts of a bound are 0)
    | ZeroDenominator   // a fraction built with denominator 0
    | InvalidRange      // the bound check refused the range

  datatype Result<+T> = Ok(value: T) | Err(error: Error)
}

=== FILE: small_orders.dfy ===
/** Farey sequences of small orders, pinned down by the definition alone. */
module SmallOrders {
  import opened Fractions
  import opened FareySpec

  /** The Farey sequence of order 5 on the unit interval. */
  const OrderFive: seq<Frac> := [
    Frac(0, 1), Frac(1, 5), Frac(1, 4), Frac(1, 3), Frac(2, 5), Frac(1, 2),
    Frac(3, 5), Frac(2, 3), Frac(3, 4), Frac(4, 5), Frac(1, 1)]

  /** Its part from 1/3 to 2/3. */
  const MiddleOfOrderFive: seq<Frac> := [Frac(1, 3), Frac(2, 5), Frac(1, 2), Frac(3, 5), Frac(2, 3)]

  /** Both lists meet the definition: consecutive terms are adjacent neighbours. */
  lemma OrderFiveIsFareyRange()
    ensures IsFareyRange(OrderFive, 5, Frac(0, 1), Frac(1, 1))
    ensures IsFareyRange(MiddleOfOrderFive, 5, Frac(1, 3), Frac(2, 3))
  {
    forall i | 0 <= i < |OrderFive| - 1
      ensures Adjacent(OrderFive, i, 5)
    {
    }
    NeighbourChain(OrderFive, 5);
    forall i | 0 <= i < |MiddleOfOrderFive| - 1
      ensures Adjacent(MiddleOfOrderFive, i, 5)
    {
    }
    NeighbourChain(MiddleOfOrderFive, 5);
  }

  /** Any sequence meeting the definition for order 5 on `[0, 1]` is `OrderFive`. */
  lemma OrderFiveIsUnique(s: seq<Frac>)
    requires IsFareyRange(s, 5, Frac(0, 1), Frac(1, 1))
    ensures s == OrderFive
  {
    OrderFiveIsFareyRange();
    FareyRangeUnique(s, OrderFive, 5, Frac(0, 1), Frac(1, 1));
  }

  /** Any sequence meeting the definition for order 5 between 1/3 and 2/3 is `MiddleOfOrderFive`. */
  lemma MiddleIsUnique(s: seq<Frac>)
    requires IsFareyRange(s, 5, Frac(1, 3), Frac(2, 3))
    ensures s == MiddleOfOrderFive
  {
    OrderFiveIsFareyRange();
    FareyRangeUnique(s, MiddleOfOrderFive, 5, Frac(1, 3), Frac(2, 3));
  }
}
